=== FILE: README.md ===
# DreamSprout in Dafny

DreamSprout turns a dream description and a few core elements into an
illustrated children's storybook. A local text model (served by Ollama)
writes the story. The story is cut into scenes, one image is painted per
scene, and the story is laid out as an HTML page. Paragraphs get images at
a regular stride. Each run goes into its `outputs/run_<timestamp>`
directory; runs started in the same second share it. A command-line run
also adds a link to its storybook to the run index `outputs/index.html`.
The web app runs the same steps in a background task: it compresses each
scene with the text model before illustrating it, and it reports progress
through a per-run record. Web runs are not added to the index; the web
app's gallery lists the finished runs instead.

This project models that core as pure Dafny functions and methods. The text
model, the image generator, the HTTP exchange, the clock and the file system
are all parameters or values. The modules follow the program:

- `Strings`: the Python string primitives the program relies on. These are
  `strip`, `split(sep)`, `join`, `split()` and the decimal rendering in
  f-strings.
- `Paths`: posix `os.path.join` and `basename`, and `relpath` for a
  normalised path below a root without a trailing slash.
- `Config`: the configuration constants.
- `Scenes`: the paragraph lists and `split_scenes`.
- `Placement`: the image-slot rule of both renderers, given in closed form.
- `Storybook`: the scene lists the two renderers build.
- `Prompts`: the three prompt templates, each with its inverse, and the two
  calls into the text model.
- `Artifacts`: the run directory, image names, the image loop and the run
  index.
- `Registry`: the model registry.
- `Ollama`: the Ollama runner.
- `Pipeline`: `run_pipeline`.
- `Progress`: the web app's progress tracker.
- `WebApp`: `start` followed by its background task.
- `Gallery`: the gallery listing.

Notes on behaviour:

- A registry lookup of an unknown name gives `None`. It does not raise.
- `raise_for_status` turns only the statuses 400–599 into errors. Any other
  status, a redirect for example, is read as a reply.
- With five paragraphs and four images, the fifth paragraph gets no image.
  `Pipeline.FiveParagraphsFourImages` proves this.

## Model

| member | source | states |
|---|---|---|
| Strings.Strip | dreamsprout.py:39 | the stripped text is no longer than the input and neither starts nor ends with whitespace |
| Strings.StripRemovesOnlySpace | dreamsprout.py:39 | strip removes only leading and trailing whitespace; it leaves nothing exactly when the line is all whitespace |
| Strings.StripIdempotent | dreamsprout.py:51 | stripping a stripped text changes nothing |
| Strings.Split | dreamsprout.py:39 | `split(sep)` gives one more piece than there are separators, and no piece holds the separator |
| Strings.JoinSplit | dreamsprout.py:39 | joining the pieces of a split with the separator gives back the text |
| Strings.SplitJoin | dreamsprout_webapp.py:29 | splitting a join of separator-free parts gives back the parts |
| Strings.ParseNatToString | dreamsprout.py:210 | the decimal rendering of a number in an f-string reads back as that number |
| Strings.NatToStringInjective | dreamsprout.py:210 | distinct numbers render as distinct decimal texts |
| Paths.Basename | dreamsprout.py:83 | the base name is the longest slash-free suffix of the path |
| Paths.BasenameOfJoin | dreamsprout.py:210 | the base name of a directory joined with a plain file name is that file name |
| Paths.RelativeTo | dreamsprout.py:236 | for a normalised path below a root without a trailing slash, the relative path is what follows `root + "/"`; a path not starting with `root + "/"` gives `None` |
| Paths.RelativeToJoin | dreamsprout.py:236 | a path built by joining plain components below the root is relative to it by exactly those components |
| Scenes.PyPrefix | dreamsprout.py:40 | Python's `s[:k]`: a prefix of length min(k, len) for k ≥ 0, and len + k (at least 0) for a negative k |
| Scenes.SplitScenes | dreamsprout.py:38-40 | the scenes are the first min(k, desired) of the k non-blank stripped lines, in order; each is non-empty and stripped |
| Scenes.SplitScenesAllIffFew | dreamsprout.py:40 | all paragraphs are returned exactly when there are at most `desired` of them, or none |
| Scenes.ParagraphIsStripped | dreamsprout.py:39 | every paragraph is non-empty and has no surrounding whitespace |
| Scenes.ParagraphOfLine | dreamsprout.py:39 | a line yields a paragraph iff it is not blank; the paragraph is the stripped line, at the position counting the non-blank lines before it |
| Scenes.LineOfParagraph | dreamsprout.py:39 | every paragraph comes from a non-blank line, the one with exactly that many non-blank lines before it |
| Scenes.RawParagraphsStripToParagraphs | dreamsprout.py:101 | the alternative renderer keeps the same lines unstripped; stripped, they are the main renderer's paragraphs |
| Scenes.MultiLineParagraphGivesSeveralScenes | dreamsprout.py:39 | a paragraph written over two lines gives two scenes, and a blank line gives none |
| Placement.Stride | dreamsprout.py:82 | the stride `max(1, N // M)` is at least 1 |
| Placement.LayoutHolds | dreamsprout.py:79-85 | the loop puts image k on paragraph i exactly when i + 1 is the (k+1)-th multiple of the stride and k < M |
| Placement.SlotAt | dreamsprout.py:82-84 | one loop step: the paragraph takes the next image iff one is left and it ends a stride, and the counter then moves on by one |
| Placement.FigAtEnd | dreamsprout.py:79-85 | after the last paragraph the counter is min(M, N) |
| Placement.LayoutCount | dreamsprout.py:79-85 | exactly min(M, N) paragraphs receive an image |
| Placement.LayoutPlacesImage | dreamsprout.py:82-84 | image k is placed iff k < min(M, N), and then on paragraph (k+1)·stride (1-based) |
| Placement.LayoutOrdered | dreamsprout.py:82-84 | images appear in increasing order down the page, so none is placed twice |
| Placement.LayoutOneToOne | dreamsprout.py:82 | with as many images as paragraphs, paragraph i gets image i |
| Placement.LayoutDense | dreamsprout.py:79-85 | with fewer than twice as many paragraphs as images, paragraph i gets image i while images last, and none after that |
| Placement.LayoutFull | dreamsprout.py:79-85 | every paragraph gets an image iff there are no more paragraphs than images |
| Placement.LayoutTenFour | dreamsprout.py:79-85 | ten paragraphs and four images: images on paragraphs 2, 4, 6, 8 (1-based) |
| Placement.LayoutFiveFour | dreamsprout.py:79-85 | five paragraphs and four images: images on paragraphs 1–4, none on 5 |
| Storybook.ImageIndex | dreamsprout.py:82-83 | the image index the layout gives is always a valid index into the image paths |
| Storybook.ImageNameAtLayout | dreamsprout.py:82-83 | a paragraph shows an image iff the layout places one there, and it shows the base name of that image's path |
| Storybook.SceneStep | dreamsprout.py:81-85 | one renderer step gives the paragraph the image the layout assigns and advances the counter to match |
| Storybook.Slot | dreamsprout.py:82-84 | the loop body: the paragraph shows the image the layout places on it, and the counter moves to its value for the next paragraph |
| Storybook.BuildScenes | dreamsprout.py:76-85 | one scene per paragraph, in order, with its text and the image the layout assigns |
| Storybook.RenderScenes | dreamsprout.py:66-85 | the page's scene list: every non-blank stripped line with its placed image |
| Storybook.AltSlot | dreamsprout.py:154-157 | the alternative loop body: the paragraph gets the image tag the layout places on it, and the counter moves on to match |
| Storybook.BuildAltScenes | dreamsprout.py:151-158 | one scene per paragraph, in order, each with the image tag the layout assigns |
| Storybook.RenderAltScenes | dreamsprout.py:101-158 | the alternative page: every non-blank line unstripped, with the placed image's base name as `src` and its 1-based number k+1 for the alt text |
| Storybook.AltTextNumber | dreamsprout.py:156 | the alt text is `Scene ` followed by the decimal image number, which reads back from it |
| Storybook.AltMatchesMain | dreamsprout.py:151-157 | both renderers put the same image on the same paragraph; the alternative one numbers layout image k as k+1 |
| Storybook.RenderedImageCount | dreamsprout.py:79-85 | a rendered story shows min(M, N) images; none when there are no images |
| Prompts.StoryTemplateNumbers | dreamsprout.py:21-29 | the story template carries the configured word target and scene count in decimal |
| Prompts.ParseBuildStoryPrompt | dreamsprout.py:17-30 | a one-line dream and the `", "`-joined elements are read back from the built story prompt |
| Prompts.BuildParseStoryPrompt | dreamsprout.py:17-30 | any text that parses as a story prompt is the prompt built from what it parses to |
| Prompts.GenerateStoryReply | dreamsprout.py:33-35 | the story is the runner's reply to a prompt carrying the dream and the joined elements |
| Prompts.CompressPromptRoundTrip | dreamsprout.py:44-50 | the scene text is read back from its compression prompt |
| Prompts.CompressPromptOfParsed | dreamsprout.py:44-50 | a text read as a compression prompt is the prompt for the scene it carries |
| Prompts.CompressScene | dreamsprout.py:51 | the summary has no surrounding whitespace |
| Prompts.CompressSceneReply | dreamsprout.py:43-51 | the summary is the stripped reply of the runner to a prompt carrying the scene |
| Prompts.ImagePromptRoundTrip | dreamsprout.py:55-63 | the scene text is read back as the focus of its illustration prompt |
| Prompts.ImagePromptOfFocus | dreamsprout.py:55-63 | a text with a focus is the illustration prompt for that focus |
| Prompts.ImagePromptInjective | dreamsprout.py:55-63 | distinct scenes give distinct illustration prompts |
| Artifacts.SceneFileName | dreamsprout.py:210 | an image file name holds no slash |
| Artifacts.SceneFileNameNumber | dreamsprout.py:210 | the image number is read back from `scene_<i>.png` |
| Artifacts.SceneFileNamesDistinct | dreamsprout.py:210 | distinct image numbers give distinct file names |
| Artifacts.ImagePathBasename | dreamsprout.py:210 | the base name of an image path is its file name, which is what the page shows |
| Artifacts.ImagePathsDistinct | dreamsprout.py:210 | distinct images of a run are saved under distinct paths |
| Artifacts.ImagePaths | dreamsprout.py:204-212 | the recorded paths are `dir/scene_1.png` … `dir/scene_k.png`, in order |
| Artifacts.FirstFailure | dreamsprout.py:204-209 | every call before the first failing one succeeds, and the call at it fails |
| Artifacts.FirstFailureAt | dreamsprout.py:204-209 | with every earlier call successful, a failing call is the first failure and a successful one is not |
| Artifacts.StoreLookup | dreamsprout.py:210-211 | after saving under distinct paths, each path holds its own image and every other file is as it was |
| Artifacts.SaveImages | dreamsprout.py:203-212 | one image per prompt, in order, until the first failing call; `failed` iff some call failed; the files are the prior files with those saves applied |
| Artifacts.SavedImagesAreStored | dreamsprout.py:203-212 | after the loop each image path holds the image painted for its prompt, and no other file changed |
| Artifacts.UpdateIndex | dreamsprout.py:239-246 | an absent index becomes header, entry and `</ul>`; an existing one gets the entry appended |
| Artifacts.IndexAfterAppends | dreamsprout.py:239-241 | each later run's entry is appended at the end of the index |
| Artifacts.IndexAfterRuns | dreamsprout.py:239-246 | from no index, only the first run's entry sits inside the list; every later entry lands after `</ul>` |
| Artifacts.RunEntry | dreamsprout.py:236-237 | a run's index line links `run_<timestamp>/storybook.html` and is labelled `run_<timestamp>` |
| Artifacts.RunPathsBelowOutput | dreamsprout.py:235-237 | the run directory's base name is the run's name, and the storybook is `<run name>/storybook.html` relative to the output directory |
| Artifacts.RunDirsDistinct | dreamsprout.py:171-172 | two runs share a directory exactly when their timestamps are equal |
| Registry.NewRegistry | model_registry.py:10-13 | a new registry has both maps empty and the given device |
| Registry.ConfigFrom | model_registry.py:37-43 | each stored setting is the supplied parameter, or its default (30, 7.5, (768, 512), 42, "") |
| Registry.ConfigDefaults | model_registry.py:37-43 | with no parameters supplied, the stored settings are all defaults |
| Registry.ConfigAllSupplied | model_registry.py:37-43 | with every parameter supplied, the stored settings are exactly those |
| Registry.RegisterText | model_registry.py:16-18 | the name now maps to the runner; every other text entry and the whole image map are unchanged |
| Registry.GetText | model_registry.py:20-21 | a lookup finds the registered runner, or gives `None` for an unregistered name |
| Registry.RegisterImage | model_registry.py:24-45 | the name maps to a pipeline on the registry's device with the merged settings; nothing else changes |
| Registry.GetImage | model_registry.py:47-48 | a lookup finds the registered pipeline, or gives `None` for an unregistered name |
| Registry.TextRoundTrip | model_registry.py:16-21 | a registered runner is found under its name, and the last registration wins |
| Registry.KindsIndependent | model_registry.py:16-48 | registering one kind leaves every lookup of the other kind, and of other names, unchanged |
| Registry.ImageRoundTrip | model_registry.py:24-48 | a registered pipeline is found under its name with the merged settings |
| Registry.FreshRegistryEmpty | model_registry.py:10-13 | a new registry knows no model of either kind |
| Ollama.DefaultRunner | ollama_runner.py:14-16 | the default runner uses model "dummy" and the configured server |
| Ollama.BuildPayload | ollama_runner.py:20-29 | the request names the runner's model, carries the prompt unchanged with streaming off, and sends only num_ctx, temperature and top_p |
| Ollama.Generate | ollama_runner.py:31-37 | a reply's "response" field, or "", on success; the error prefix and the message on a connection failure, an HTTP error or a body that is not a JSON object |
| Ollama.RunnerGenerate | ollama_runner.py:18-37 | whatever the server does, the caller gets text: if the exchange with the runner's server fails, the text starts with the error prefix; otherwise it is the model's "response" field, or "" without one |
| Ollama.GenerateFailuresArePrefixed | ollama_runner.py:31-37 | every failure yields text starting with the error prefix, and a success passes the model's text on unchanged |
| Ollama.RedirectStatusIsNotAnError | ollama_runner.py:33 | a 3xx reply is read as if it had succeeded |
| Ollama.FailureIndistinguishable | ollama_runner.py:35-37 | a failure and a model answer that starts with the prefix give the same text |
| Ollama.CountTokens | ollama_runner.py:9-10 | the count is the number of word starts, i.e. maximal runs of non-whitespace |
| Ollama.CountTokensBounds | ollama_runner.py:9-10 | the count is 0 exactly for empty or all-whitespace text, and never exceeds the length |
| Progress.Merge | dreamsprout_webapp.py:43 | `dict.update` sets the keys the patch names and leaves the others |
| Progress.Status | dreamsprout_webapp.py:109-111 | a known run's record, or the default record for an unknown id |
| Progress.Start | dreamsprout_webapp.py:39 | the run's record is set to the default; other runs are untouched |
| Progress.Write | dreamsprout_webapp.py:43 | a patch to a started run merges into its record; a run never started raises KeyError |
| Progress.ReplayStarted | dreamsprout_webapp.py:43-102 | writes to a started run never fail and leave every other run as it was |
| Progress.StatusAfterCheckpoints | dreamsprout_webapp.py:39-102 | after the start and k checkpoint writes, the status is the k-th checkpoint's percent and stage |
| Progress.PercentIncreasing | dreamsprout_webapp.py:43-102 | the percent rises strictly: 0, 5, 10, 30, 60, 90, 100 |
| Progress.DoneOnlyAtEnd | dreamsprout_webapp.py:43-102 | `done` holds only after the last write, and then with percent 100 and stage "Complete!" |
| Progress.RestartResets | dreamsprout_webapp.py:33-39 | a second start with the same id resets the record to the default |
| Progress.WritesCommute | dreamsprout_webapp.py:42-43 | writes to two different runs commute |
| Pipeline.Registered | dreamsprout.py:176-187 | the registry holds the text runner under its name and the configured image pipeline under "sdxl" |
| Pipeline.ImagePrompts | dreamsprout.py:197 | one prompt per scene, each with its scene as the focus |
| Pipeline.Illustrate | dreamsprout.py:199-212 | images are saved in order until the first failure, and `failed` iff fewer than all were saved |
| Pipeline.Render | dreamsprout.py:218-231 | the page goes to `<run dir>/storybook.html`, with one scene per paragraph and its placed image |
| Pipeline.Publish | dreamsprout.py:218-246 | the page is written, and the index gets the run's entry (created or appended) |
| Pipeline.RunPipeline | dreamsprout.py:166-248 | the story is the configured model's reply; prompts focus on the first four scenes; images are saved until the first failure; page and index are written iff none failed, otherwise the index is unchanged |
| Pipeline.StoryImages | dreamsprout.py:196-227 | when every image call succeeds, min(4, N) images are shown, and every paragraph has one iff N ≤ 4 |
| Pipeline.FiveParagraphsFourImages | dreamsprout.py:79-85 | images 1–4 go on paragraphs 1–4, and the fifth paragraph shows none |
| Pipeline.FiveParagraphStory | dreamsprout.py:196-227 | a five-paragraph story gets four images, and its fifth paragraph is left without one |
| Gallery.BelowTotal | dreamsprout_webapp.py:123 | any two names are ordered one way or the other |
| Gallery.BelowTransitive | dreamsprout_webapp.py:123 | the name order is transitive |
| Gallery.BelowAntisymmetric | dreamsprout_webapp.py:123 | names ordered both ways are equal |
| Gallery.SortDescending | dreamsprout_webapp.py:123 | `sorted(..., reverse=True)` is a permutation of the listing with the greatest name first |
| Gallery.Keep | dreamsprout_webapp.py:123-129 | a run is kept iff it is in the listing and is a directory holding `storybook.html`, and it links to its page |
| Gallery.KeepDescending | dreamsprout_webapp.py:123-129 | filtering keeps the order of the listing |
| Gallery.GalleryMembership | dreamsprout_webapp.py:119-130 | a run is shown iff it is a finished run directory, linked at `/outputs/<name>/storybook.html` |
| Gallery.GalleryOrdered | dreamsprout_webapp.py:123 | the runs are shown greatest name first |
| WebApp.ParseElements | dreamsprout_webapp.py:29 | one element per comma plus one, none containing a comma, and joined with "," they give back the field |
| WebApp.ParseJoinedElements | dreamsprout_webapp.py:29 | comma-free elements come back unchanged from their joined field |
| WebApp.ElementsKeepSpaces | dreamsprout_webapp.py:29 | `"a, b"` parses to `a` and `" b"`: nothing is trimmed |
| WebApp.SpacedElementsInPrompt | dreamsprout_webapp.py:29 | such elements reach the story prompt with two spaces after the comma |
| WebApp.ProgressStart | dreamsprout_webapp.py:39 | creating the record is the state before any checkpoint |
| WebApp.ProgressStep | dreamsprout_webapp.py:43-102 | each checkpoint write succeeds and moves the tracker one checkpoint on |
| WebApp.ProgressedStatus | dreamsprout_webapp.py:39-102 | after k checkpoint writes the run shows the k-th checkpoint's record |
| WebApp.ProgressedLeavesOthers | dreamsprout_webapp.py:39-102 | a run's progress writes leave every other run's record unchanged |
| WebApp.CompressAll | dreamsprout_webapp.py:69 | one summary per scene, in order, each the compression of its scene |
| WebApp.WebPromptsFocus | dreamsprout_webapp.py:63-71 | the story is the chosen model's reply; there is one prompt per scene, each focused on the model's stripped reply to a compression prompt carrying that scene |
| WebApp.Finish | dreamsprout_webapp.py:73-102 | images are saved until the first failure; the page is written and the run marked done iff none failed, otherwise progress stays at 60% |
| WebApp.Task | dreamsprout_webapp.py:42-102 | the background task after registration: story, compressed prompts, images, page, and the matching checkpoint writes |
| WebApp.StartRun | dreamsprout_webapp.py:27-106 | the run id is `run_<timestamp>`; progress stops at 5% if the image model does not load, at 60% if an image fails, and is 100% and done iff the page was written; other runs are untouched |
| WebApp.StatusAfterRun | dreamsprout_webapp.py:42-111 | what `status` reports once the task ended: 5%, 60% or 100% "Complete!" with done |

## Left out

- Network and model backends are left out. `requests.post`, the Ollama server and the diffusers pipeline are function parameters: `post` gives an exchange, and `paint` gives an image or `None` when the call raises. Loading the pipeline (`from_pretrained`, the dtype, `.to(device)`, xformers) is not modelled, because it is foreign code.
- Randomness in the backends is left out: `post` and `paint` are deterministic functions of their arguments. The program samples text at temperature 0.8 (ollama_runner.py:26). It calls the image pipeline without a generator, so the stored seed 42 (model_registry.py:41) never reaches the call (dreamsprout.py:205-209, dreamsprout_webapp.py:77-81). In the model, two equal prompts give the same image, the same reply and the same failure outcome. That covers two identical scenes, whose compressions and images the program would draw independently, and it rules out a later call failing where an earlier call with the same prompt succeeded. Every contract that speaks of `paint` or `post` is about one fixed such function.
- Jinja2 template loading and rendering, and the HTML/CSS text of the alternative renderer, are left out. The model stops at the scene list handed to the template. For the alternative page it stops at each image's `src` and number, with the alt text given by `Storybook.AltText`.
- `render_storybook_html`'s title, model names, prompts and timestamp only reach the template, so they are not parameters of the model.
- Files, the output directory and the run index are values passed in and out, not the file system. `os.makedirs`, `img.save` and `open`/`write` never fail in the model. The gallery reads a listing and a map from directory to entries.
- The clock is left out: `datetime.now().strftime(...)` is a timestamp parameter.
- Floating-point parameters (guidance scale, temperature, top_p) are Dafny `real`s that are only passed along.
- Threading is left out. The web app's background task is modelled as running to its end right after `start`. Concurrent runs sharing the tracker are not modelled beyond `Progress.WritesCommute`.
- Flask routing, `jsonify`, `render_template` for the form and gallery pages, `serve_output`, `AVAILABLE_LLM_MODELS`, the argparse CLI and every `print` are left out. They are framework or console I/O.
- Ollama.Generate: the exception text of a connection failure or a bad body is an input string. Only the `raise_for_status` text is spelled out.
- Ollama.Generate: a "response" field that is not a string (`null`, a number, a list) is not modelled; the model's reply is always a string or absent. Python returns such a value unchanged, and the callers then raise. `split_scenes` and `.strip()` have no string to work on. The command-line run would stop before any image is painted. The web task would stop at 30% "Splitting scenes...", which `WebApp.StartRun` cannot express.
- Paths.RelativeTo: agrees with `os.path.relpath` only for a normalised path (no empty, `.` or `..` component) below a root without a trailing slash. `relpath` first normalises both paths. It turns `outputs//x` into `x`, `outputs/a/../b` into `b` and `outputs/` into `.`, and it accepts a root with a trailing slash; the model does none of this, and it gives `None` instead of a `..` path for a path outside the root. The program passes only `outputs/run_<ts>/storybook.html` against `outputs` (dreamsprout.py:229,236), which is in that domain (`Paths.RelativeToJoin`).
- Prompts.GenerateStoryReply: says nothing when the dream contains a newline. The story prompt cannot then be read back unambiguously; the story is still the runner's reply to the built prompt.
- Pipeline.RunPipeline: requires a timestamp of digits and underscores, the only shape `strftime("%Y%m%d_%H%M%S")` gives. It assumes the image pipeline loads. A load failure raises before the story is generated, and that path is not modelled.
- WebApp.StartRun: the pipeline load is a boolean input `loads`. Every failure of the text model's exchange becomes text, so the image load and the image calls are the only failure points modelled. A non-string "response" value is the exception; see the Ollama.Generate line above.

=== FILE: artifacts.dfy ===
/** What a run leaves on disk, with files as values: the run directory, one
    numbered image per prompt, the storybook page, and the run index that
    links every run's storybook. */
module Artifacts {
  import opened Wrappers
  import opened Strings
  import opened Paths
  import Config

  /** The run's name, `run_<timestamp>`. */
  function RunName(timestamp: string): string {
    "run_" + timestamp
  }

  /** `os.path.join(output_dir, f"run_{timestamp}")` */
  function RunDir(timestamp: string): string {
    PathJoin(Config.OutputDir, RunName(timestamp))
  }

  /** The name of image i (counting from 1): `scene_<i>.png`. */
  function SceneFileName(i: nat): (name: string)
    ensures '/' !in name
  {
    var name := "scene_" + NatToString(i) + ".png";
    assert forall c :: c in NatToString(i) ==> IsDigit(c);
    name
  }

  /** `os.path.join(output_dir, f"scene_{i}.png")` */
  function ImagePath(dir: string, i: nat): string {
    PathJoin(dir, SceneFileName(i))
  }

  /** The image number is read back from the file name. */
  lemma SceneFileNameNumber(i: nat)
    ensures Between(SceneFileName(i), "scene_", ".png") == Some(NatToString(i))
  {
    BetweenFrame("scene_", NatToString(i), ".png");
  }

  /** Distinct images get distinct file names, so no image overwrites another. */
  lemma SceneFileNamesDistinct(i: nat, j: nat)
    requires SceneFileName(i) == SceneFileName(j)
    ensures i == j
  {
    SceneFileNameNumber(i);
    SceneFileNameNumber(j);
    NatToStringInjective(i, j);
  }

  /** The page shows an image under its file name. */
  lemma ImagePathBasename(dir: string, i: nat)
    ensures Basename(ImagePath(dir, i)) == SceneFileName(i)
  {
    BasenameOfJoin(dir, SceneFileName(i));
  }

  /** Distinct images are saved under distinct paths in the same directory. */
  lemma ImagePathsDistinct(dir: string, i: nat, j: nat)
    requires i != j
    ensures ImagePath(dir, i) != ImagePath(dir, j)
  {
    if ImagePath(dir, i) == ImagePath(dir, j) {
      ImagePathBasename(dir, i);
      ImagePathBasename(dir, j);
      SceneFileNamesDistinct(i, j);
    }
  }

  /** The paths of images 1..k in dir, in order. */
  function ImagePaths(dir: string, k: nat): (paths: seq<string>)
    ensures |paths| == k
    ensures forall j :: 0 <= j < k ==> paths[j] == ImagePath(dir, j + 1)
  {
    if k == 0 then [] else ImagePaths(dir, k - 1) + [ImagePath(dir, k)]
  }

  /** Index of the first prompt the image generator fails on (`None`), or
      the number of prompts when it fails on none. */
  function FirstFailure<Img>(prompts: seq<string>, paint: string -> Option<Img>): (k: nat)
    ensures k <= |prompts|
    ensures forall j :: 0 <= j < k ==> paint(prompts[j]).Some?
    ensures k < |prompts| ==> paint(prompts[k]).None?
  {
    if |prompts| == 0 then 0
    else if paint(prompts[0]).None? then 0
    else 1 + FirstFailure(prompts[1..], paint)
  }

  /** The image loop at prompt i, with every earlier call successful: a
      failing call is the first failure, a successful one is not. */
  lemma FirstFailureAt<Img>(prompts: seq<string>, paint: string -> Option<Img>, i: nat)
    requires i < |prompts| && i <= FirstFailure(prompts, paint)
    ensures paint(prompts[i]).None? ==> FirstFailure(prompts, paint) == i
    ensures paint(prompts[i]).Some? ==> i + 1 <= FirstFailure(prompts, paint)
  {
  }

  /** The files after saving images[j] under paths[j], in order. */
  function Store<Img>(files: map<string, Img>, paths: seq<string>, images: seq<Img>): map<string, Img>
    requires |paths| == |images|
  {
    if |paths| == 0 then files
    else Store(files, paths[..|paths| - 1], images[..|images| - 1])[paths[|paths| - 1] := images[|images| - 1]]
  }

  /** Saving one more image is one more update of the files. */
  lemma StoreSnoc<Img>(files: map<string, Img>, paths: seq<string>, images: seq<Img>, path: string, image: Img)
    requires |paths| == |images|
    ensures Store(files, paths + [path], images + [image]) == Store(files, paths, images)[path := image]
  {
    assert (paths + [path])[..|paths|] == paths;
    assert (images + [image])[..|images|] == images;
  }

  /** After saving under pairwise distinct paths, each path holds its own
      image, and every other file is as it was. */
  lemma {:induction false} StoreLookup<Img>(files: map<string, Img>, paths: seq<string>, images: seq<Img>)
    requires |paths| == |images|
    requires forall i, j :: 0 <= i < j < |paths| ==> paths[i] != paths[j]
    ensures forall i :: 0 <= i < |paths| ==> paths[i] in Store(files, paths, images) && Store(files, paths, images)[paths[i]] == images[i]
    ensures forall p :: p !in paths ==> (p in Store(files, paths, images) <==> p in files)
    ensures forall p :: p !in paths && p in files ==> Store(files, paths, images)[p] == files[p]
  {
    if |paths| > 0 {
      var n := |paths| - 1;
      assert forall i :: 0 <= i < n ==> paths[..n][i] == paths[i] && images[..n][i] == images[i];
      StoreLookup(files, paths[..n], images[..n]);
      var prev := Store(files, paths[..n], images[..n]);
      var store := Store(files, paths, images);
      assert store == prev[paths[n] := images[n]];
      forall i | 0 <= i < |paths|
        ensures paths[i] in store && store[paths[i]] == images[i]
      {
        if i < n {
          assert paths[..n][i] == paths[i] && paths[i] != paths[n];
        }
      }
      forall p | p !in paths
        ensures (p in store <==> p in files) && (p in files ==> store[p] == files[p])
      {
        assert p !in paths[..n] && p != paths[n];
      }
    }
  }

  /** The image paths are pairwise distinct. */
  lemma ImagePathsDistinctAll(dir: string, k: nat)
    ensures forall i, j :: 0 <= i < j < k ==> ImagePaths(dir, k)[i] != ImagePaths(dir, k)[j]
  {
    forall i, j | 0 <= i < j < k
      ensures ImagePaths(dir, k)[i] != ImagePaths(dir, k)[j]
    {
      ImagePathsDistinct(dir, i + 1, j + 1);
    }
  }

  /** The image loop: for each prompt in order, generate an image, save it as
      `scene_<i>.png` in dir (i from 1), and record its path. A failing
      generator stops the loop; the images saved so far stay. Files are a
      map from path to image. */
  method SaveImages<Img>(dir: string, prompts: seq<string>, paint: string -> Option<Img>, files: map<string, Img>)
    returns (paths: seq<string>, images: seq<Img>, files': map<string, Img>, failed: bool)
    ensures failed <==> FirstFailure(prompts, paint) < |prompts|
    ensures |paths| == |images| == FirstFailure(prompts, paint)
    ensures paths == ImagePaths(dir, |paths|)
    ensures forall i :: 0 <= i < |images| ==> paint(prompts[i]) == Some(images[i])
    ensures files' == Store(files, paths, images)
  {
    paths, images, files', failed := [], [], files, false;
    var i := 0;
    while i < |prompts|
      invariant i <= FirstFailure(prompts, paint)
      invariant !failed && |paths| == |images| == i
      invariant paths == ImagePaths(dir, i)
      invariant forall j :: 0 <= j < i ==> paint(prompts[j]) == Some(images[j])
      invariant files' == Store(files, paths, images)
    {
      var img := paint(prompts[i]);
      FirstFailureAt(prompts, paint, i);
      if img.None? {
        failed := true;
        return;
      }
      var path := ImagePath(dir, i + 1);
      StoreSnoc(files, paths, images, path, img.value);
      files' := files'[path := img.value];
      paths := paths + [path];
      images := images + [img.value];
      i := i + 1;
    }
  }

  /** After the loop, each saved path holds the image generated for its
      prompt, and no other file changed. */
  lemma SavedImagesAreStored<Img>(dir: string, prompts: seq<string>, paint: string -> Option<Img>, files: map<string, Img>, k: nat, images: seq<Img>)
    requires |images| == k
    ensures forall i :: 0 <= i < k ==>
      && ImagePaths(dir, k)[i] in Store(files, ImagePaths(dir, k), images)
      && Store(files, ImagePaths(dir, k), images)[ImagePaths(dir, k)[i]] == images[i]
    ensures forall p :: p !in ImagePaths(dir, k) ==>
      (p in Store(files, ImagePaths(dir, k), images) <==> p in files)
    ensures forall p :: p !in ImagePaths(dir, k) && p in files ==>
      Store(files, ImagePaths(dir, k), images)[p] == files[p]
  {
    ImagePathsDistinctAll(dir, k);
    StoreLookup(files, ImagePaths(dir, k), images);
  }

  /** The first lines of a new run index. */
  const IndexHeader: string := "<h1>DreamSprout Runs</h1>\n<ul>\n"

  /** The closing line written once, when the index is created. */
  const IndexFooter: string := "</ul>\n"

  /** One index line: a link to the storybook, labelled with the run's name. */
  function IndexEntry(link: string, name: string): string {
    "<li><a href='" + link + "'>" + name + "</a></li>\n"
  }

  /** The index after one run: created with header, entry and footer when
      absent, otherwise the entry appended to what is there. */
  function UpdateIndex(index: Option<string>, entry: string): (r: string)
    ensures index.Some? ==> index.value <= r && r[|index.value|..] == entry
    ensures index.None? ==> IndexHeader <= r && r[|IndexHeader|..] == entry + IndexFooter
  {
    match index
    case None =>
      assert (IndexHeader + entry + IndexFooter)[|IndexHeader|..] == entry + IndexFooter;
      IndexHeader + entry + IndexFooter
    case Some(prior) => prior + entry
  }

  /** The index after a sequence of runs, oldest first. */
  function IndexAfter(index: Option<string>, entries: seq<string>): Option<string>
    decreases |entries|
  {
    if |entries| == 0 then index
    else IndexAfter(Some(UpdateIndex(index, entries[0])), entries[1..])
  }

  function Concat(parts: seq<string>): string {
    if |parts| == 0 then "" else parts[0] + Concat(parts[1..])
  }

  lemma {:induction false} IndexAfterAppends(prior: string, entries: seq<string>)
    ensures IndexAfter(Some(prior), entries) == Some(prior + Concat(entries))
    decreases |entries|
  {
    if |entries| > 0 {
      assert IndexAfter(Some(prior), entries) == IndexAfter(Some(prior + entries[0]), entries[1..]);
      IndexAfterAppends(prior + entries[0], entries[1..]);
      assert Concat(entries) == entries[0] + Concat(entries[1..]);
      assert prior + entries[0] + Concat(entries[1..]) == prior + Concat(entries);
    } else {
      assert prior + Concat(entries) == prior;
    }
  }

  /** From no index, runs r1..rk give header, r1, footer, then r2..rk: only
      the first run's entry sits inside the list; every later one lands
      after the closing `</ul>`. */
  lemma IndexAfterRuns(entries: seq<string>)
    requires |entries| > 0
    ensures IndexAfter(None, entries)
      == Some(IndexHeader + entries[0] + IndexFooter + Concat(entries[1..]))
  {
    IndexAfterAppends(IndexHeader + entries[0] + IndexFooter, entries[1..]);
  }

  /** The storybook page of a run. */
  function StorybookPath(timestamp: string): string {
    PathJoin(RunDir(timestamp), "storybook.html")
  }

  /** The index line of a run: the storybook's path relative to the output
      directory, labelled with the base name of the run directory. */
  function RunEntry(timestamp: string): (entry: string)
    requires '/' !in timestamp
    ensures entry == IndexEntry(RunName(timestamp) + "/storybook.html", RunName(timestamp))
  {
    RunPathsBelowOutput(timestamp);
    IndexEntry(RelativeTo(StorybookPath(timestamp), Config.OutputDir).value, Basename(RunDir(timestamp)))
  }

  /** The run directory lies directly below the output directory: its base
      name is the run's name and the storybook is `<run name>/storybook.html`
      relative to the output directory. */
  lemma RunPathsBelowOutput(timestamp: string)
    requires '/' !in timestamp
    ensures Basename(RunDir(timestamp)) == RunName(timestamp)
    ensures RelativeTo(StorybookPath(timestamp), Config.OutputDir) == Some(RunName(timestamp) + "/storybook.html")
  {
    var name := RunName(timestamp);
    assert '/' !in name && |name| > 0 && name[0] == 'r';
    assert |Config.OutputDir| > 0 && Config.OutputDir[|Config.OutputDir| - 1] == 's';
    BasenameOfJoin(Config.OutputDir, RunName(timestamp));
    RelativeToJoin(Config.OutputDir, name, "storybook.html");
    assert name + "/" + "storybook.html" == name + "/storybook.html";
  }

  /** Runs with different timestamps get different directories, and the same
      timestamp (two runs in the same second) the same one. */
  lemma RunDirsDistinct(a: string, b: string)
    requires '/' !in a && '/' !in b
    ensures RunDir(a) == RunDir(b) <==> a == b
  {
    if RunDir(a) == RunDir(b) {
      RunPathsBelowOutput(a);
      RunPathsBelowOutput(b);
      assert RunName(a)[4..] == a && RunName(b)[4..] == b;
    }
  }
}

=== FILE: config.dfy ===
/** The configuration values the modelled code reads (config.py). They are
    plain data, so they are fixed here as constants. */
module Config {

  /** Root directory of all run output (`OUTPUT_DIR`). */
  const OutputDir: string := "outputs"

  /** Endpoint of the Ollama server (`OLLAMA_URL`). */
  const OllamaUrl: string := "http://localhost:11434/api/generate"

  /** Text model used by the command-line pipeline. */
  const TextModelName: string := "llama3.1"
  const NumCtx: int := 32000
  /** Configured, but never sent: the request payload carries only
      `num_ctx`, `temperature` and `top_p` (see `Ollama.BuildPayload`). */
  const MaxTokens: int := 32000
  const Temperature: real := 0.8
  const TopP: real := 0.9

  /** Image model registration and call parameters. */
  const ImageModelName: string := "sdxl"
  const ImageModelId: string := "stabilityai/stable-diffusion-xl-base-1.0"
  const InferenceSteps: int := 30
  const GuidanceScale: real := 6.5
  const Resolution: (int, int) := (768, 512)
  const Seed: int := 42
  const NegativePrompt: string := "scary, horror, gore, photorealistic, harsh shadows, text overlay"

  /** Pipeline settings. */
  const TargetWords: nat := 500
  const Scenes: nat := 4
  const StyleHint: string := "gentle, whimsical, storybook illustration"
}

=== FILE: gallery.dfy ===
/** The gallery page's list of runs: the entries of the output directory in
    reverse name order, keeping the directories that hold a storybook. The
    file system is a value: the listing of the output directory, and for
    each entry that is a directory, the names it contains. */
module Gallery {

  /** Python's string order (`<=` on `str`): code point by code point, a
      proper prefix first. */
  predicate Below(a: string, b: string) {
    |a| == 0 || (|b| > 0 && (a[0] < b[0] || (a[0] == b[0] && Below(a[1..], b[1..]))))
  }

  lemma {:induction false} BelowTotal(a: string, b: string)
    ensures Below(a, b) || Below(b, a)
  {
    if |a| > 0 && |b| > 0 && a[0] == b[0] {
      BelowTotal(a[1..], b[1..]);
    }
  }

  lemma {:induction false} BelowTransitive(a: string, b: string, c: string)
    requires Below(a, b) && Below(b, c)
    ensures Below(a, c)
  {
    if |a| > 0 && a[0] == b[0] && b[0] == c[0] {
      BelowTransitive(a[1..], b[1..], c[1..]);
    }
  }

  lemma {:induction false} BelowAntisymmetric(a: string, b: string)
    requires Below(a, b) && Below(b, a)
    ensures a == b
  {
    if |a| > 0 {
      BelowAntisymmetric(a[1..], b[1..]);
      assert a == [a[0]] + a[1..] && b == [b[0]] + b[1..];
    }
  }

  /** Largest name first. */
  predicate Descending(s: seq<string>) {
    forall i, j :: 0 <= i < j < |s| ==> Below(s[j], s[i])
  }

  /** Puts x before the first name not above it. */
  function Insert(x: string, s: seq<string>): (r: seq<string>)
    ensures multiset(r) == multiset(s) + multiset{x}
    ensures |r| == |s| + 1
  {
    if |s| == 0 then [x]
    else if Below(s[0], x) then [x] + s
    else
      assert s == [s[0]] + s[1..];
      [s[0]] + Insert(x, s[1..])
  }

  lemma {:induction false} InsertDescending(x: string, s: seq<string>)
    requires Descending(s)
    ensures Descending(Insert(x, s))
  {
    var r := Insert(x, s);
    if |s| == 0 {
    } else if Below(s[0], x) {
      forall j | 1 <= j < |r|
        ensures Below(r[j], r[0])
      {
        if j > 1 {
          BelowTransitive(s[j - 1], s[0], x);
        }
      }
    } else {
      InsertDescending(x, s[1..]);
      BelowTotal(s[0], x);
      forall j | 1 <= j < |r|
        ensures Below(r[j], s[0])
      {
        assert r[j] in multiset(Insert(x, s[1..]));
        assert r[j] == x || r[j] in multiset(s[1..]);
        if r[j] != x {
          var k :| 0 <= k < |s[1..]| && s[1..][k] == r[j];
          assert s[k + 1] == r[j];
        }
      }
    }
  }

  /** `sorted(names, reverse=True)` */
  function SortDescending(s: seq<string>): (r: seq<string>)
    ensures multiset(r) == multiset(s)
    ensures Descending(r)
  {
    if |s| == 0 then []
    else
      var rest := SortDescending(s[1..]);
      InsertDescending(s[0], rest);
      assert s == [s[0]] + s[1..];
      Insert(s[0], rest)
  }

  /** One entry of the gallery page. */
  datatype Run = Run(name: string, link: string)

  /** The page address of a run's storybook. */
  function Link(name: string): string {
    "/outputs/" + name + "/storybook.html"
  }

  /** Whether an entry of the output directory is a finished run: a
      directory that holds `storybook.html`. */
  predicate Finished(dirs: map<string, set<string>>, name: string) {
    name in dirs && "storybook.html" in dirs[name]
  }

  /** The runs of an already ordered listing, keeping finished ones. */
  function Keep(names: seq<string>, dirs: map<string, set<string>>): (runs: seq<Run>)
    ensures |runs| <= |names|
    ensures forall r :: r in runs ==> r.name in names && Finished(dirs, r.name) && r.link == Link(r.name)
    ensures forall n :: n in names && Finished(dirs, n) ==> Run(n, Link(n)) in runs
  {
    if |names| == 0 then []
    else
      var rest := Keep(names[1..], dirs);
      assert forall n :: n in names[1..] ==> n in names;
      assert forall n :: n in names ==> n == names[0] || n in names[1..];
      (if Finished(dirs, names[0]) then [Run(names[0], Link(names[0]))] else []) + rest
  }

  /** The order of the kept runs is the order of the listing they come from. */
  lemma {:induction false} KeepDescending(names: seq<string>, dirs: map<string, set<string>>)
    requires Descending(names)
    ensures forall i, j :: 0 <= i < j < |Keep(names, dirs)| ==>
      Below(Keep(names, dirs)[j].name, Keep(names, dirs)[i].name)
  {
    if |names| > 0 {
      KeepDescending(names[1..], dirs);
      var rest := Keep(names[1..], dirs);
      forall r | r in rest
        ensures Below(r.name, names[0])
      {
        var k :| 0 <= k < |names[1..]| && names[1..][k] == r.name;
        assert names[k + 1] == r.name;
      }
    }
  }

  /** `gallery()`: the runs in reverse name order, each linking to its page. */
  function GalleryRuns(listing: seq<string>, dirs: map<string, set<string>>): seq<Run> {
    Keep(SortDescending(listing), dirs)
  }

  /** A run is shown iff its name is in the listing and it is a directory
      holding a storybook; its link is `/outputs/<name>/storybook.html`. */
  lemma GalleryMembership(listing: seq<string>, dirs: map<string, set<string>>, r: Run)
    ensures r in GalleryRuns(listing, dirs)
      <==> r.name in listing && Finished(dirs, r.name) && r.link == Link(r.name)
  {
    var sorted := SortDescending(listing);
    assert forall n :: n in sorted <==> n in multiset(sorted);
    assert forall n :: n in listing <==> n in multiset(listing);
  }

  /** The runs are shown with the greatest name first (the newest run, for
      names `run_<timestamp>`). */
  lemma GalleryOrdered(listing: seq<string>, dirs: map<string, set<string>>, i: nat, j: nat)
    requires i < j < |GalleryRuns(listing, dirs)|
    ensures Below(GalleryRuns(listing, dirs)[j].name, GalleryRuns(listing, dirs)[i].name)
  {
    KeepDescending(SortDescending(listing), dirs);
  }
}

=== FILE: ollama.dfy ===
/** The Ollama text runner: the request it builds, how it turns the server's
    answer (or any failure) into a string, and the whitespace word count used
    as a token estimate. The HTTP exchange itself is an input. */
module Ollama {
  import opened Wrappers
  import opened Strings
  import Config

  /** The generation options sent with every request. */
  datatype Options = Options(numCtx: int, temperature: real, topP: real)

  /** The JSON body of a request. */
  datatype Payload = Payload(model: string, prompt: string, stream: bool, options: Options)

  /** `OllamaRunner(model_name, server_url)` */
  datatype Runner = Runner(modelName: string, serverUrl: string)

  /** The model name used when none is given. */
  const DefaultModelName: string := "dummy"

  /** `OllamaRunner()` with its default model and server. */
  function DefaultRunner(): (r: Runner)
    ensures r.modelName == "dummy" && r.serverUrl == Config.OllamaUrl
  {
    Runner(DefaultModelName, Config.OllamaUrl)
  }

  /** The options come from the text model settings; `max_tokens` is not sent. */
  const RequestOptions: Options := Options(Config.NumCtx, Config.Temperature, Config.TopP)

  /** The request body `generate` posts: this runner's model, the prompt as
      given, no streaming. */
  function BuildPayload(r: Runner, prompt: string): (p: Payload)
    ensures p.model == r.modelName && p.prompt == prompt && !p.stream
    ensures p.options == Options(32000, 0.8, 0.9)
  {
    Payload(r.modelName, prompt, false, RequestOptions)
  }

  /** What the server's reply body parses to. */
  datatype Body =
    | NotJson(message: string)                  // `response.json()` raises
    | JsonObject(response: Option<string>)     // a JSON object, with or without "response"
    | JsonOther(message: string)               // valid JSON that is not an object: `.get` raises

  /** The outcome of `requests.post`: a failure to connect (raised, with its
      message), or a reply with a status, a reason and a body. */
  datatype Exchange =
    | ConnectionError(message: string)
    | Reply(status: int, reason: string, url: string, body: Body)

  const ErrorPrefix: string := "Error calling Ollama API: "

  /** The message `raise_for_status` raises with, for 400..599. */
  function HttpErrorMessage(status: int, reason: string, url: string): string
    requires 400 <= status < 600
  {
    NatToString(status) + (if status < 500 then " Client Error: " else " Server Error: ")
      + reason + " for url: " + url
  }

  /** `raise_for_status()` raises for client and server errors only. */
  predicate IsHttpError(status: int) {
    400 <= status < 600
  }

  /** `generate(prompt)` given the exchange: the "response" field, "" when
      the object has none, and an error string for any exception. */
  function Generate(e: Exchange): (s: string)
    ensures e.Reply? && !IsHttpError(e.status) && e.body.JsonObject? ==>
      s == e.body.response.GetOr("")
    ensures e.ConnectionError? ==> s == ErrorPrefix + e.message
    ensures e.Reply? && IsHttpError(e.status) ==>
      s == ErrorPrefix + HttpErrorMessage(e.status, e.reason, e.url)
    ensures e.Reply? && !IsHttpError(e.status) && !e.body.JsonObject? ==>
      s == ErrorPrefix + e.body.message
  {
    match e
    case ConnectionError(msg) => ErrorPrefix + msg
    case Reply(status, reason, url, body) =>
      if IsHttpError(status) then ErrorPrefix + HttpErrorMessage(status, reason, url)
      else match body
        case NotJson(msg) => ErrorPrefix + msg
        case JsonOther(msg) => ErrorPrefix + msg
        case JsonObject(response) => response.GetOr("")
  }

  /** Whether `generate` failed: every failure path yields a string that
      starts with the error prefix. */
  predicate Failed(e: Exchange) {
    e.ConnectionError? || IsHttpError(e.status) || !e.body.JsonObject?
  }

  /** `runner.generate(prompt)`: post the payload to the runner's server
      (the network is the parameter `post`) and map the exchange to text.
      Whatever the server does, the caller gets text: the error prefix on a
      failure, the model's answer (or "") otherwise. */
  function RunnerGenerate(r: Runner, prompt: string, post: (string, Payload) -> Exchange): (s: string)
    ensures var e := post(r.serverUrl, BuildPayload(r, prompt));
      && (Failed(e) ==> ErrorPrefix <= s)
      && (!Failed(e) ==> s == e.body.response.GetOr(""))
  {
    Generate(post(r.serverUrl, BuildPayload(r, prompt)))
  }

  /** Every failure becomes a string starting with the error prefix, and
      nothing is raised; a success passes the model's text on unchanged. */
  lemma GenerateFailuresArePrefixed(e: Exchange)
    ensures Failed(e) ==> ErrorPrefix <= Generate(e)
    ensures !Failed(e) ==> Generate(e) == e.body.response.GetOr("")
  {
  }

  /** A 3xx or other non-error status is not a failure: its body is used as
      if the request had succeeded. */
  lemma RedirectStatusIsNotAnError(r: string)
    ensures Generate(Reply(302, "Found", Config.OllamaUrl, JsonObject(Some(r)))) == r
  {
  }

  /** The caller cannot tell a failure from a model that answers with text
      starting with the prefix: the two give the same string. */
  lemma FailureIndistinguishable(msg: string)
    ensures Generate(ConnectionError(msg))
      == Generate(Reply(200, "OK", Config.OllamaUrl, JsonObject(Some(ErrorPrefix + msg))))
  {
  }

  /** `count_tokens(text)`: the number of whitespace-separated words. */
  function CountTokens(text: string): (n: nat)
    ensures n == WordStarts(text, 0)
  {
    WordsCountStarts(text, 0);
    |Words(text)|
  }

  /** The count is 0 exactly for empty or all-whitespace text, and never
      more than the length of the text. */
  lemma CountTokensBounds(text: string)
    ensures CountTokens(text) == 0 <==> AllSpace(text)
    ensures CountTokens(text) <= |text|
  {
    WordStartsBound(text, 0);
    WordStartsZero(text, 0);
  }
}

=== FILE: paths.dfy ===
/** POSIX path operations used to name run artifacts (`os.path.join`,
    `os.path.basename`, `os.path.relpath`). */
module Paths {
  import opened Wrappers

  /** `os.path.join(a, b)`: an absolute b replaces a; otherwise a '/' is
      inserted unless a is empty or already ends with one. */
  function PathJoin(a: string, b: string): string {
    if |b| > 0 && b[0] == '/' then b
    else if |a| == 0 || a[|a| - 1] == '/' then a + b
    else a + "/" + b
  }

  /** `os.path.basename(p)`: the longest suffix of p without a '/'. */
  function Basename(p: string): (r: string)
    ensures |r| <= |p| && r == p[|p| - |r|..]
    ensures '/' !in r
    ensures |r| < |p| ==> p[|p| - |r| - 1] == '/'
  {
    if |p| == 0 || p[|p| - 1] == '/' then ""
    else
      var r := Basename(p[..|p| - 1]) + [p[|p| - 1]];
      assert p[..|p| - 1][|p| - |r|..] + [p[|p| - 1]] == p[|p| - |r|..];
      r
  }

  /** One more character that is not a slash extends the base name. */
  lemma BasenameSnoc(q: string, c: char)
    requires c != '/'
    ensures Basename(q + [c]) == Basename(q) + [c]
  {
    assert (q + [c])[..|q|] == q;
  }

  /** A slash-free name after a slash (or at the start) is the base name. */
  lemma {:induction false} BasenameAfterSlash(x: string, name: string)
    requires '/' !in name && (|x| == 0 || x[|x| - 1] == '/')
    ensures Basename(x + name) == name
    decreases |name|
  {
    var p := x + name;
    if |name| == 0 {
      assert p == x;
    } else {
      var init, c := name[..|name| - 1], name[|name| - 1];
      assert name == init + [c];
      assert c != '/';
      assert forall k :: 0 <= k < |init| ==> init[k] == name[k];
      assert p == (x + init) + [c];
      BasenameSnoc(x + init, c);
      BasenameAfterSlash(x, init);
    }
  }

  /** Joining a directory and a plain file name, then taking the base name,
      gives back the file name. */
  lemma BasenameOfJoin(dir: string, name: string)
    requires '/' !in name
    ensures Basename(PathJoin(dir, name)) == name
  {
    assert |name| == 0 || name[0] != '/';
    if |dir| == 0 || dir[|dir| - 1] == '/' {
      BasenameAfterSlash(dir, name);
    } else {
      assert dir + "/" + name == (dir + "/") + name;
      BasenameAfterSlash(dir + "/", name);
    }
  }

  /** `os.path.relpath(path, root)` for a normalised path (no empty, `.` or
      `..` component) below a root without a trailing slash: the part after
      `root + "/"`. `None` for any other path. Unlike `relpath`, nothing is
      normalised first, so outside that domain the two differ. */
  function RelativeTo(path: string, root: string): (r: Option<string>)
    ensures r.Some? <==> |root| + 1 <= |path| && path[..|root| + 1] == root + "/"
    ensures r.Some? ==> root + "/" + r.value == path
  {
    if |root| + 1 <= |path| && path[..|root| + 1] == root + "/" then
      assert path == path[..|root| + 1] + path[|root| + 1..];
      Some(path[|root| + 1..])
    else None
  }

  /** A path joined below root, one plain component at a time, is relative
      to root by exactly those components. */
  lemma RelativeToJoin(root: string, dir: string, name: string)
    requires |root| > 0 && root[|root| - 1] != '/'
    requires |dir| > 0 && dir[0] != '/' && '/' !in dir
    requires |name| == 0 || name[0] != '/'
    ensures RelativeTo(PathJoin(PathJoin(root, dir), name), root) == Some(dir + "/" + name)
  {
    var p := PathJoin(PathJoin(root, dir), name);
    assert PathJoin(root, dir) == root + "/" + dir;
    assert p == root + "/" + (dir + "/" + name);
    assert p[..|root| + 1] == root + "/";
    assert p[|root| + 1..] == dir + "/" + name;
  }
}

=== FILE: pipeline.dfy ===
/** The command-line pipeline `run_pipeline`: register the models, generate
    the story, split it into scenes, paint one image per scene into the run
    directory, build the storybook's scene list and add the run to the index.
    The text server, the image generator, the clock and the file system are
    inputs: `post` answers HTTP requests, `paint` is the loaded pipeline's
    call (`None` when it raises), the timestamp is the clock's formatted
    reading, and files and the index are values passed in and out. */
module Pipeline {
  import opened Wrappers
  import opened Strings
  import opened Scenes
  import opened Prompts
  import opened Placement
  import opened Storybook
  import opened Artifacts
  import opened Paths
  import Registry
  import Ollama
  import Config

  /** The text model handle: `OllamaRunner(model_name=model).generate`. */
  function TextModel(model: string, post: (string, Ollama.Payload) -> Ollama.Exchange): string -> string {
    p => Ollama.RunnerGenerate(Ollama.Runner(model, Config.OllamaUrl), p, post)
  }

  /** A call of a loaded image pipeline: the pipeline, the prompt, the number
      of inference steps and the guidance scale; `None` when it raises. */
  type Paint<Img> = (Registry.ImagePipe, string, int, real) -> Option<Img>

  /** The image parameters of the configuration, all of them supplied. */
  const ImageParameters: Registry.Parameters := Registry.Parameters(
    Some(Config.InferenceSteps), Some(Config.GuidanceScale), Some(Config.Resolution),
    Some(Config.Seed), Some(Config.NegativePrompt))

  /** The pipeline the registry holds after registering the configured model
      on its default device. */
  const LoadedPipe: Registry.ImagePipe :=
    Registry.ImagePipe(Config.ImageModelId, Registry.DefaultDevice, Registry.ConfigFrom(ImageParameters))

  /** The per-prompt call of the image loop: steps and guidance come from the
      configuration; the other stored settings are not passed. */
  function Painter<Img>(paint: Paint<Img>, pipe: Registry.ImagePipe): string -> Option<Img> {
    p => paint(pipe, p, Config.InferenceSteps, Config.GuidanceScale)
  }

  /** The registry the pipeline builds: the text model under `model`, the
      image model under its configured name. */
  function Registered<Text>(model: string, text: Text): (r: Registry.Registry<Text>)
    ensures Registry.GetText(r, model) == Some(text)
    ensures Registry.GetImage(r, Config.ImageModelName) == Some(LoadedPipe)
  {
    var r := Registry.RegisterText(Registry.NewRegistry(Registry.DefaultDevice), model, text);
    Registry.RegisterImage(r, Config.ImageModelName, Config.ImageModelId, ImageParameters)
  }

  /** `[build_image_prompt(s) for s in scenes]`: one prompt per scene, each
      carrying its scene as the focus. */
  function ImagePrompts(scenes: seq<string>): (prompts: seq<string>)
    ensures |prompts| == |scenes|
    ensures forall i :: 0 <= i < |scenes| ==> FocusOf(prompts[i]) == Some(scenes[i])
  {
    if |scenes| == 0 then []
    else
      ImagePromptRoundTrip(scenes[0]);
      [BuildImagePrompt(scenes[0])] + ImagePrompts(scenes[1..])
  }

  /** What `strftime("%Y%m%d_%H%M%S")` produces: digits and underscores. */
  predicate StampLike(timestamp: string) {
    forall i :: 0 <= i < |timestamp| ==> IsDigit(timestamp[i]) || timestamp[i] == '_'
  }

  /** The effect of the image loop on the files: one image per prompt, in
      order, under `scene_<i>.png` in dir, until the first failing call.
      Each saved path holds the image painted for its prompt; every other
      file is as it was. */
  ghost predicate ImagesSaved<Img>(dir: string, prompts: seq<string>, painter: string -> Option<Img>,
                                   files: map<string, Img>, paths: seq<string>, files': map<string, Img>)
  {
    && |paths| == FirstFailure(prompts, painter)
    && paths == ImagePaths(dir, |paths|)
    && (forall i :: 0 <= i < |paths| ==> paths[i] in files' && painter(prompts[i]) == Some(files'[paths[i]]))
    && (forall p :: p !in paths ==> (p in files' <==> p in files))
    && (forall p :: p !in paths && p in files ==> files'[p] == files[p])
  }

  /** The image loop of a run. */
  method Illustrate<Img>(dir: string, prompts: seq<string>, painter: string -> Option<Img>, files: map<string, Img>)
    returns (paths: seq<string>, files': map<string, Img>, failed: bool)
    ensures failed <==> |paths| < |prompts|
    ensures ImagesSaved(dir, prompts, painter, files, paths, files')
  {
    var images;
    paths, images, files', failed := SaveImages(dir, prompts, painter, files);
    SavedImagesAreStored(dir, prompts, painter, files, |paths|, images);
  }

  /** A storybook page: written at `<run dir>/storybook.html`, one scene
      per non-blank paragraph of the story, each with the image the layout
      places on it. */
  predicate PageOf(story: string, paths: seq<string>, timestamp: string, page: (string, seq<SceneView>)) {
    && page.0 == StorybookPath(timestamp)
    && |page.1| == |Paragraphs(story)|
    && forall i :: 0 <= i < |page.1| ==>
      page.1[i] == SceneView(Paragraphs(story)[i], ImageNameAt(paths, |Paragraphs(story)|, i))
  }

  /** The storybook page of a run. */
  method Render(story: string, paths: seq<string>, timestamp: string) returns (page: (string, seq<SceneView>))
    ensures PageOf(story, paths, timestamp, page)
  {
    var views := RenderScenes(story, paths);
    page := (StorybookPath(timestamp), views);
  }

  /** The end of a successful run: the page, and the index with the run's
      entry added. */
  method Publish(story: string, paths: seq<string>, timestamp: string, index: Option<string>)
    returns (page: (string, seq<SceneView>), index': string)
    requires StampLike(timestamp)
    ensures PageOf(story, paths, timestamp, page)
    ensures index.Some? ==> index' == index.value + IndexEntry(RunName(timestamp) + "/storybook.html", RunName(timestamp))
    ensures index.None? ==> index' == IndexHeader + IndexEntry(RunName(timestamp) + "/storybook.html", RunName(timestamp)) + IndexFooter
  {
    page := Render(story, paths, timestamp);
    assert forall c :: c in timestamp ==> IsDigit(c) || c == '_';
    index' := UpdateIndex(index, RunEntry(timestamp));
  }

  /** `run_pipeline(dream_input, core_elements)`. A failing image call
      raises: the images saved before it stay, and no page and no index
      entry are written. Otherwise the page is written and the run's entry
      is added to the index. */
  method RunPipeline<Img>(dream: string, elements: seq<string>, timestamp: string,
                          post: (string, Ollama.Payload) -> Ollama.Exchange, paint: Paint<Img>,
                          files: map<string, Img>, index: Option<string>)
    returns (story: string, prompts: seq<string>, paths: seq<string>, files': map<string, Img>,
             page: Option<(string, seq<SceneView>)>, index': Option<string>)
    requires StampLike(timestamp)
    ensures story == GenerateStory(TextModel(Config.TextModelName, post), dream, elements)
    ensures |prompts| == |SplitScenes(story, Config.Scenes)| <= Config.Scenes
    ensures forall i :: 0 <= i < |prompts| ==> FocusOf(prompts[i]) == Some(SplitScenes(story, Config.Scenes)[i])
    ensures ImagesSaved(RunDir(timestamp), prompts, Painter(paint, LoadedPipe), files, paths, files')
    ensures page.Some? <==> |paths| == |prompts|
    ensures page.Some? ==> PageOf(story, paths, timestamp, page.value)
    ensures page.Some? ==> index'.Some? && index'.value == UpdateIndex(index, IndexEntry(RunName(timestamp) + "/storybook.html", RunName(timestamp)))
    ensures page.None? ==> index' == index
  {
    var registry := Registered(Config.TextModelName, TextModel(Config.TextModelName, post));
    var textModel := Registry.GetText(registry, Config.TextModelName).value;
    story := GenerateStory(textModel, dream, elements);
    prompts := ImagePrompts(SplitScenes(story, Config.Scenes));
    var pipe := Registry.GetImage(registry, Config.ImageModelName).value;
    var failed;
    paths, files', failed := Illustrate(RunDir(timestamp), prompts, Painter(paint, pipe), files);
    index' := index;
    page := None;
    if !failed {
      var p, i := Publish(story, paths, timestamp, index);
      page, index' := Some(p), Some(i);
    }
  }

  /** When every image call succeeds, the story shows min(4, N) images for
      N paragraphs, and every paragraph shows one iff there are at most 4. */
  lemma StoryImages(story: string, paths: seq<string>)
    requires |paths| == |SplitScenes(story, Config.Scenes)|
    ensures |paths| == Min(Config.Scenes, |Paragraphs(story)|)
    ensures (forall i :: 0 <= i < |Paragraphs(story)| ==> ImageNameAt(paths, |Paragraphs(story)|, i).Some?)
      <==> |Paragraphs(story)| <= Config.Scenes
  {
    var n := |Paragraphs(story)|;
    LayoutFull(n, |paths|);
    forall i | 0 <= i < n
      ensures ImageNameAt(paths, n, i).Some? <==> Layout(n, |paths|)[i].Some?
    {
      ImageNameAtLayout(paths, n, i);
    }
  }

  /** Five paragraphs and four images: images 1..4 go on paragraphs 1..4,
      and the fifth paragraph shows none. */
  lemma FiveParagraphsFourImages(paths: seq<string>)
    requires |paths| == 4
    ensures forall i :: 0 <= i < 4 ==> ImageNameAt(paths, 5, i) == Some(Basename(paths[i]))
    ensures ImageNameAt(paths, 5, 4).None?
  {
    forall i | 0 <= i < 5
      ensures i < 4 ==> ImageNameAt(paths, 5, i) == Some(Basename(paths[i]))
      ensures i == 4 ==> ImageNameAt(paths, 5, i).None?
    {
      LayoutDense(5, |paths|, i);
      ImageNameAtLayout(paths, 5, i);
    }
  }

  /** A story of five paragraphs gives four scenes, hence four images when
      every call succeeds, and its fifth paragraph is left without one. */
  lemma FiveParagraphStory(story: string, paths: seq<string>)
    requires |Paragraphs(story)| == 5 && |paths| == |SplitScenes(story, Config.Scenes)|
    ensures |paths| == 4
    ensures ImageNameAt(paths, |Paragraphs(story)|, 4).None?
  {
    FiveParagraphsFourImages(paths);
  }
}

=== FILE: placement.dfy ===
/** Where the storybook renderers put the illustrations: with N paragraphs
    and M images, the loop walks the paragraphs with a counter of images used
    so far and gives paragraph i (0-based) the next image when images remain
    and i + 1 is a multiple of the stride max(1, N / M). The guard tests the
    counter first, so the stride is never computed when M is 0. */
module Placement {
  import opened Wrappers

  /** `max(1, n // m)` */
  function Stride(n: nat, m: nat): (s: nat)
    requires m > 0
    ensures s >= 1
  {
    Max(1, n / m)
  }

  /** The placement loop from paragraph i on, with `fig` images used so far:
      for each paragraph, the index of the image it receives, if any. */
  function PlaceFrom(n: nat, m: nat, i: nat, fig: nat): (slots: seq<Option<nat>>)
    requires i <= n
    ensures |slots| == n - i
    decreases n - i
  {
    if i == n then []
    else if fig < m && (i + 1) % Stride(n, m) == 0 then [Some(fig)] + PlaceFrom(n, m, i + 1, fig + 1)
    else [None] + PlaceFrom(n, m, i + 1, fig)
  }

  /** The image (if any) each of n paragraphs receives from m images. */
  function Layout(n: nat, m: nat): (slots: seq<Option<nat>>)
    ensures |slots| == n
  {
    PlaceFrom(n, m, 0, 0)
  }

  /** The value of the image counter when the loop reaches paragraph i:
      one image per multiple of the stride among 1..i, capped at m. */
  function FigAt(n: nat, m: nat, i: nat): nat {
    if m == 0 then 0 else Min(m, i / Stride(n, m))
  }

  /** Independent description of the layout: paragraph i holds image k iff
      i + 1 is the (k + 1)-th multiple of the stride and k < m. */
  predicate Holds(n: nat, m: nat, i: nat, k: nat) {
    m > 0 && (i + 1) % Stride(n, m) == 0 && k == (i + 1) / Stride(n, m) - 1 && k < m
  }

  /** One step of integer division: (i + 1) / s gains one exactly at a multiple of s. */
  lemma DivStep(i: nat, s: nat)
    requires s > 0
    ensures (i + 1) / s == i / s + (if (i + 1) % s == 0 then 1 else 0)
  {
    var q, r := i / s, i % s;
    assert i == q * s + r && 0 <= r < s;
    if r + 1 == s {
      assert i + 1 == (q + 1) * s;
      DivUnique(i + 1, s, q + 1, 0);
    } else {
      assert i + 1 == q * s + (r + 1);
      DivUnique(i + 1, s, q, r + 1);
    }
  }

  /** Quotient and remainder are determined by a = q * s + r with 0 <= r < s. */
  lemma DivUnique(a: nat, s: nat, q: nat, r: nat)
    requires s > 0 && r < s && a == q * s + r
    ensures a / s == q && a % s == r
  {
    var q', r' := a / s, a % s;
    if q' < q {
      MulStep(q', q - q', s);
    } else if q' > q {
      MulStep(q, q' - q, s);
    }
  }

  /** (x + y) * s is at least x * s + s when y >= 1. */
  lemma MulStep(x: nat, y: nat, s: nat)
    requires y >= 1
    ensures (x + y) * s >= x * s + s
  {
    assert (x + y) * s == x * s + y * s;
    assert y * s == (y - 1) * s + s;
  }

  /** The loop's counter advances exactly when an image is placed. */
  lemma FigStep(n: nat, m: nat, i: nat)
    ensures FigAt(n, m, i + 1)
      == FigAt(n, m, i) + (if FigAt(n, m, i) < m && (i + 1) % Stride(n, m) == 0 then 1 else 0)
  {
    if m > 0 {
      DivStep(i, Stride(n, m));
    }
  }

  /** The loop run from paragraph i with the counter at FigAt places image k
      at paragraph j exactly when Holds says so. */
  lemma {:induction false} PlaceFromHolds(n: nat, m: nat, i: nat, j: nat)
    requires i <= j < n
    ensures PlaceFrom(n, m, i, FigAt(n, m, i))[j - i] == Some(FigAt(n, m, j)) <==> FigAt(n, m, j) < m && m > 0 && (j + 1) % Stride(n, m) == 0
    ensures PlaceFrom(n, m, i, FigAt(n, m, i))[j - i].Some? <==> FigAt(n, m, j) < m && m > 0 && (j + 1) % Stride(n, m) == 0
    decreases j - i
  {
    FigStep(n, m, i);
    if i < j {
      PlaceFromHolds(n, m, i + 1, j);
    }
  }

  /** Closed form of the layout: paragraph i holds image k iff Holds(n, m, i, k). */
  lemma LayoutHolds(n: nat, m: nat, i: nat, k: nat)
    requires i < n
    ensures Layout(n, m)[i] == Some(k) <==> Holds(n, m, i, k)
  {
    PlaceFromHolds(n, m, 0, i);
    if m > 0 && (i + 1) % Stride(n, m) == 0 {
      DivStep(i, Stride(n, m));
    }
  }

  /** The images placed over all n paragraphs number min(m, n): every image
      is used when there are no more images than paragraphs. */
  lemma FigAtEnd(n: nat, m: nat)
    ensures FigAt(n, m, n) == Min(m, n)
  {
    if m > 0 {
      var s := Stride(n, m);
      if m <= n {
        assert s == n / m;
        assert s * m <= n by {
          DivUnique(n, m, n / m, n % m);
        }
        QuotientAtLeast(n, s, m);
      } else {
        assert n / m == 0;
      }
    }
  }

  /** If a * b <= n then n / b >= a. */
  lemma QuotientAtLeast(n: nat, b: nat, a: nat)
    requires b > 0 && b * a <= n
    ensures n / b >= a
  {
    var q := n / b;
    if q < a {
      MulStep(q, a - q, b);
    }
  }

  /** Counting the images the loop places, paragraph by paragraph. */
  function Placed(slots: seq<Option<nat>>): nat {
    if |slots| == 0 then 0 else (if slots[0].Some? then 1 else 0) + Placed(slots[1..])
  }

  lemma {:induction false} PlacedFrom(n: nat, m: nat, i: nat)
    requires i <= n
    ensures Placed(PlaceFrom(n, m, i, FigAt(n, m, i))) == FigAt(n, m, n) - FigAt(n, m, i)
    decreases n - i
  {
    if i < n {
      FigStep(n, m, i);
      FigMonotone(n, m, i + 1, n);
      PlacedFrom(n, m, i + 1);
    }
  }

  lemma FigMonotone(n: nat, m: nat, i: nat, j: nat)
    requires i <= j
    ensures FigAt(n, m, i) <= FigAt(n, m, j)
  {
    if m > 0 {
      DivMonotone(i, j, Stride(n, m));
    }
  }

  lemma DivMonotone(i: nat, j: nat, s: nat)
    requires s > 0 && i <= j
    ensures i / s <= j / s
  {
    if i / s > j / s {
      MulStep(j / s, i / s - j / s, s);
    }
  }

  /** The layout uses min(m, n) images in all. */
  lemma LayoutCount(n: nat, m: nat)
    ensures Placed(Layout(n, m)) == Min(m, n)
  {
    PlacedFrom(n, m, 0);
    FigAtEnd(n, m);
  }

  /** The stride fits m times into n when there are no more images than
      paragraphs; otherwise it is 1. */
  lemma StrideFits(n: nat, m: nat)
    requires m > 0
    ensures m <= n ==> m * Stride(n, m) <= n
    ensures m > n ==> Stride(n, m) == 1
  {
    if m <= n {
      DivUnique(n, m, n / m, n % m);
      assert m * (n / m) == (n / m) * m;
    }
  }

  /** a <= b gives a * s <= b * s. */
  lemma MulMonotone(a: nat, b: nat, s: nat)
    requires a <= b
    ensures a * s <= b * s
  {
    if a < b {
      MulStep(a, b - a, s);
    }
  }

  /** The (k + 1)-th multiple of the stride lies within the n paragraphs
      when k < min(m, n). */
  lemma MultipleWithin(n: nat, m: nat, k: nat)
    requires m > 0 && k < Min(m, n)
    ensures 1 <= (k + 1) * Stride(n, m) <= n
  {
    var s := Stride(n, m);
    StrideFits(n, m);
    MulStep(0, k + 1, s);
    if m <= n {
      MulMonotone(k + 1, m, s);
      assert m * s == s * m;
    }
  }

  /** Image k is placed iff k < min(m, n), and then at paragraph
      (k + 1) * stride - 1: the k-th multiple of the stride, 1-based. */
  lemma LayoutPlacesImage(n: nat, m: nat, k: nat)
    ensures (exists i :: 0 <= i < n && Layout(n, m)[i] == Some(k)) <==> k < Min(m, n)
    ensures k < Min(m, n) ==> (k + 1) * Stride(n, m) - 1 < n && Layout(n, m)[(k + 1) * Stride(n, m) - 1] == Some(k)
  {
    if k < Min(m, n) {
      MultipleWithin(n, m, k);
      var i: nat := (k + 1) * Stride(n, m) - 1;
      DivUnique(i + 1, Stride(n, m), k + 1, 0);
      LayoutHolds(n, m, i, k);
    }
    forall i | 0 <= i < n && Layout(n, m)[i] == Some(k)
      ensures k < Min(m, n)
    {
      LayoutHolds(n, m, i, k);
      DivLeast(i + 1, Stride(n, m));
    }
  }

  /** Dividing by at least one does not increase a number. */
  lemma DivLeast(a: nat, s: nat)
    requires s >= 1
    ensures a / s <= a
  {
    if a / s > a {
      MulMonotone(1, s, a / s);
    }
  }

  /** Of two multiples of s, the smaller has the smaller quotient. */
  lemma MultiplesOrdered(x: nat, y: nat, s: nat)
    requires s > 0 && x < y && x % s == 0 && y % s == 0
    ensures x / s < y / s
  {
    if x / s >= y / s {
      MulMonotone(y / s, x / s, s);
    }
  }

  /** Each image is placed at most once, and images appear in the order of
      the paths: a later paragraph holds a later image. */
  lemma LayoutOrdered(n: nat, m: nat, i: nat, j: nat)
    requires i < j < n && Layout(n, m)[i].Some? && Layout(n, m)[j].Some?
    ensures Layout(n, m)[i].value < Layout(n, m)[j].value
  {
    LayoutHolds(n, m, i, Layout(n, m)[i].value);
    LayoutHolds(n, m, j, Layout(n, m)[j].value);
    MultiplesOrdered(i + 1, j + 1, Stride(n, m));
  }

  /** With as many images as paragraphs, paragraph i gets image i. */
  lemma LayoutOneToOne(n: nat, i: nat)
    requires i < n
    ensures Layout(n, n)[i] == Some(i)
  {
    assert Stride(n, n) == 1;
    DivUnique(i + 1, 1, i + 1, 0);
    LayoutHolds(n, n, i, i);
  }

  /** With fewer than twice as many paragraphs as images the stride is 1:
      paragraph i gets image i while images last, and none after that. */
  lemma LayoutDense(n: nat, m: nat, i: nat)
    requires 0 < m && n < 2 * m && i < n
    ensures Layout(n, m)[i] == (if i < m then Some(i) else None)
  {
    if n < m {
      DivUnique(n, m, 0, n);
    } else {
      DivUnique(n, m, 1, n - m);
    }
    DivUnique(i + 1, 1, i + 1, 0);
    DivUnique(i, 1, i, 0);
    PlaceFromHolds(n, m, 0, i);
    if i < m {
      LayoutHolds(n, m, i, i);
    }
  }

  /** Ten paragraphs and four images: the images go to paragraphs 2, 4, 6
      and 8 (1-based), and 9 and 10 get none. */
  lemma LayoutTenFour()
    ensures Layout(10, 4) == [None, Some(0), None, Some(1), None, Some(2), None, Some(3), None, None]
  {
  }

  /** One iteration of the placement loop at paragraph i: the slot it
      fills, and the counter it leaves for paragraph i + 1. */
  lemma SlotAt(n: nat, m: nat, i: nat)
    requires i < n
    ensures FigAt(n, m, i) < m && (i + 1) % Stride(n, m) == 0 ==>
      Layout(n, m)[i] == Some(FigAt(n, m, i)) && FigAt(n, m, i + 1) == FigAt(n, m, i) + 1
    ensures !(FigAt(n, m, i) < m && (i + 1) % Stride(n, m) == 0) ==>
      Layout(n, m)[i].None? && FigAt(n, m, i + 1) == FigAt(n, m, i)
  {
    PlaceFromHolds(n, m, 0, i);
    FigStep(n, m, i);
  }

  /** Every slot is filled exactly when the count of filled slots is the
      number of slots. */
  lemma {:induction false} PlacedAll(slots: seq<Option<nat>>)
    ensures Placed(slots) <= |slots|
    ensures Placed(slots) == |slots| <==> forall i :: 0 <= i < |slots| ==> slots[i].Some?
  {
    if |slots| > 0 {
      PlacedAll(slots[1..]);
      if forall i :: 0 <= i < |slots| ==> slots[i].Some? {
        assert forall i :: 0 <= i < |slots[1..]| ==> slots[1..][i] == slots[i + 1];
      }
      if forall i :: 0 <= i < |slots[1..]| ==> slots[1..][i].Some? {
        if slots[0].Some? {
          forall i | 0 <= i < |slots|
            ensures slots[i].Some?
          {
            if i > 0 {
              assert slots[i] == slots[1..][i - 1];
            }
          }
        }
      }
    }
  }

  /** Every paragraph gets an image exactly when there are at least as many
      images as paragraphs. */
  lemma LayoutFull(n: nat, m: nat)
    ensures (forall i :: 0 <= i < n ==> Layout(n, m)[i].Some?) <==> n <= m
  {
    LayoutCount(n, m);
    PlacedAll(Layout(n, m));
  }

  /** Five paragraphs and four images: the stride is 1, the first four
      paragraphs get an image each and the fifth gets none. */
  lemma LayoutFiveFour()
    ensures Layout(5, 4) == [Some(0), Some(1), Some(2), Some(3), None]
  {
  }
}

=== FILE: progress.dfy ===
/** The web app's progress tracker: a map from run id to a record of percent,
    stage and a done flag. A run is created with the default record and then
    patched with `dict.update` at fixed checkpoints; `status` reads a record,
    falling back to the default for an unknown id. */
module Progress {
  import opened Wrappers

  datatype Record = Record(percent: int, stage: string, done: bool)

  /** The keys a `dict.update` call mentions; the others stay as they are. */
  datatype Patch = Patch(percent: Option<int>, stage: Option<string>, done: Option<bool>)

  type Tracker = map<string, Record>

  /** The record a new run starts with, and the one `status` reports for an
      unknown run. */
  const Default: Record := Record(0, "Starting...", false)

  /** `record.update(patch)` */
  function Merge(r: Record, p: Patch): (r': Record)
    ensures p.percent.None? ==> r'.percent == r.percent
    ensures p.stage.None? ==> r'.stage == r.stage
    ensures p.done.None? ==> r'.done == r.done
    ensures p.percent.Some? ==> r'.percent == p.percent.value
    ensures p.stage.Some? ==> r'.stage == p.stage.value
    ensures p.done.Some? ==> r'.done == p.done.value
  {
    Record(p.percent.GetOr(r.percent), p.stage.GetOr(r.stage), p.done.GetOr(r.done))
  }

  /** `status(run_id)`: the run's record, or the default when unknown. */
  function Status(t: Tracker, id: string): (r: Record)
    ensures id in t ==> r == t[id]
    ensures id !in t ==> r == Default
  {
    if id in t then t[id] else Default
  }

  /** `progress_tracker[run_id] = {...}` at the start of a run: the record is
      (re)set to the default, even when a run of that id exists. */
  function Start(t: Tracker, id: string): (t': Tracker)
    ensures id in t' && t'[id] == Default
    ensures forall other :: other != id ==> (other in t' <==> other in t)
    ensures forall other :: other != id && other in t ==> t'[other] == t[other]
  {
    t[id := Default]
  }

  /** `progress_tracker[run_id].update(patch)`: a run that was never started
      has no record, and Python raises `KeyError`. */
  function Write(t: Tracker, id: string, p: Patch): (r: Result<Tracker, string>)
    ensures r.Failure? <==> id !in t
    ensures r.Success? ==> id in r.value && r.value[id] == Merge(t[id], p)
    ensures r.Success? ==> forall other :: other != id ==> (other in r.value <==> other in t)
    ensures r.Success? ==> forall other :: other != id && other in t ==> r.value[other] == t[other]
  {
    if id in t then Success(t[id := Merge(t[id], p)]) else Failure("KeyError")
  }

  /** Writes patches to one run, in order; the first failure stops. */
  function Replay(t: Tracker, id: string, ps: seq<Patch>): Result<Tracker, string>
    decreases |ps|
  {
    if |ps| == 0 then Success(t)
    else match Write(t, id, ps[0])
      case Failure(e) => Failure(e)
      case Success(t') => Replay(t', id, ps[1..])
  }

  function Step(percent: int, stage: string): Patch {
    Patch(Some(percent), Some(stage), None)
  }

  /** The writes of the background task, in the order it makes them. */
  const Checkpoints: seq<Patch> := [
    Step(5, "Registering image model..."),
    Step(10, "Generating story..."),
    Step(30, "Splitting scenes..."),
    Step(60, "Creating illustrations..."),
    Step(90, "Rendering HTML..."),
    Patch(Some(100), Some("Complete!"), Some(true))
  ]

  /** The record a run shows after the first k checkpoint writes:
      stage and percent of the last write, done only after the last one. */
  function RecordAfter(k: nat): Record
    requires k <= |Checkpoints|
  {
    if k == 0 then Default
    else Record(Checkpoints[k - 1].percent.value, Checkpoints[k - 1].stage.value, k == |Checkpoints|)
  }

  /** Writing patches to a started run never fails; every other run is left
      as it was. */
  lemma {:induction false} ReplayStarted(t: Tracker, id: string, ps: seq<Patch>)
    requires id in t
    ensures Replay(t, id, ps).Success?
    ensures id in Replay(t, id, ps).value
    ensures forall other :: other != id ==> (other in Replay(t, id, ps).value <==> other in t)
    ensures forall other :: other != id && other in t ==> Replay(t, id, ps).value[other] == t[other]
    decreases |ps|
  {
    if |ps| > 0 {
      ReplayStarted(t[id := Merge(t[id], ps[0])], id, ps[1..]);
    }
  }

  /** Replaying a prefix and then one more patch is replaying the longer prefix. */
  lemma {:induction false} ReplaySnoc(t: Tracker, id: string, ps: seq<Patch>, p: Patch)
    ensures Replay(t, id, ps + [p])
      == match Replay(t, id, ps)
         case Failure(e) => Failure(e)
         case Success(t') => Write(t', id, p)
    decreases |ps|
  {
    if |ps| == 0 {
      assert ps + [p] == [p];
    } else {
      assert (ps + [p])[1..] == ps[1..] + [p];
      if id in t {
        ReplaySnoc(t[id := Merge(t[id], ps[0])], id, ps[1..], p);
      }
    }
  }

  /** After a start and the first k checkpoint writes, the run's status is
      RecordAfter(k). */
  lemma {:induction false} StatusAfterCheckpoints(t: Tracker, id: string, k: nat)
    requires k <= |Checkpoints|
    ensures Replay(Start(t, id), id, Checkpoints[..k]).Success?
      && Status(Replay(Start(t, id), id, Checkpoints[..k]).value, id) == RecordAfter(k)
  {
    ReplayStarted(Start(t, id), id, Checkpoints[..k]);
    if k == 0 {
      assert Checkpoints[..0] == [];
    } else {
      StatusAfterCheckpoints(t, id, k - 1);
      assert Checkpoints[..k] == Checkpoints[..k - 1] + [Checkpoints[k - 1]];
      ReplaySnoc(Start(t, id), id, Checkpoints[..k - 1], Checkpoints[k - 1]);
    }
  }

  /** The status of a started run after its first k checkpoint writes. */
  function StatusAfter(t: Tracker, id: string, k: nat): (r: Record)
    requires k <= |Checkpoints|
    ensures r == RecordAfter(k)
  {
    StatusAfterCheckpoints(t, id, k);
    Status(Replay(Start(t, id), id, Checkpoints[..k]).value, id)
  }

  /** The percent a run shows rises strictly from each write to the next:
      0, 5, 10, 30, 60, 90, 100. */
  lemma PercentIncreasing(t: Tracker, id: string, i: nat, j: nat)
    requires i < j <= |Checkpoints|
    ensures StatusAfter(t, id, i).percent < StatusAfter(t, id, j).percent
  {
  }

  /** A run shows `done` only after the last write, and then with percent
      100 and stage "Complete!": every earlier patch leaves the flag alone. */
  lemma DoneOnlyAtEnd(t: Tracker, id: string, k: nat)
    requires k <= |Checkpoints|
    ensures StatusAfter(t, id, k).done <==> k == |Checkpoints|
    ensures StatusAfter(t, id, k).done ==>
      StatusAfter(t, id, k).percent == 100 && StatusAfter(t, id, k).stage == "Complete!"
  {
  }

  /** Starting a run with an id that is already there (a second start in the
      same second) resets it to the default record, whatever its progress. */
  lemma RestartResets(t: Tracker, id: string, ps: seq<Patch>)
    ensures Replay(Start(t, id), id, ps).Success?
      && Status(Start(Replay(Start(t, id), id, ps).value, id), id) == Default
  {
    ReplayStarted(Start(t, id), id, ps);
  }

  /** Writes to two different runs commute. */
  lemma WritesCommute(t: Tracker, a: string, b: string, p: Patch, q: Patch)
    requires a != b && a in t && b in t
    ensures Write(Write(t, a, p).value, b, q).value == Write(Write(t, b, q).value, a, p).value
  {
  }
}

=== FILE: prompts.dfy ===
/** The three prompt templates of the pipeline (story, scene compression,
    illustration) and the two calls into the text model that use them. Each
    template is a fixed head and tail around the caller's text, so each has an
    inverse that takes the text back out. */
module Prompts {
  import opened Wrappers
  import opened Strings
  import Config

  /** The story template up to the dream, around the word target. */
  const StoryIntro: string := "\nYou are a fantasy storyteller for children and adults.\n\nWrite a short story (~"
  const StoryTopic: string := " words) inspired by:\n- Dream: "

  /** The story template up to the dream, with the configured word target
      written out (see StoryTemplateNumbers). */
  const StoryHead: string := StoryIntro + "500" + StoryTopic

  /** Between the dream and the core elements; it starts with a newline. */
  const StoryMiddle: string := "\n- Core elements: "

  /** The story template after the core elements, around the scene count. */
  const StoryRules: string :=
    "\n\nRequirements:\n- 2nd grade level English, emotionally warm; avoid scary or dark themes.\n"
    + "- Use magical settings, funny characters, and surreal logic.\n"
    + "- End with a gentle interpretive insight.\n- Include "
  const StoryBeats: string := " clear scene beats suitable for illustration.\n"

  /** The story template after the core elements, with the configured scene
      count written out. */
  const StoryTail: string := StoryRules + "4" + StoryBeats

  /** `build_story_prompt(dream_input, core_elements)`: the elements are
      joined with ", ". */
  function BuildStoryPrompt(dream: string, elements: seq<string>): string {
    StoryHead + dream + StoryMiddle + Join(", ", elements) + StoryTail
  }

  /** Cuts body at its first newline, which must start `middle`: the text
      before it and the text after `middle`. */
  function CutAtMiddle(body: string, middle: string): (r: Option<(string, string)>)
    ensures r.Some? ==> '\n' !in r.value.0
  {
    var k := IndexOf(body, '\n');
    if middle <= body[k..] then Some((body[..k], body[k + |middle|..])) else None
  }

  /** Cutting a line and a rest joined by a middle that starts with a
      newline gives back the line and the rest. */
  lemma CutAtMiddleJoined(line: string, middle: string, rest: string)
    requires '\n' !in line && |middle| > 0 && middle[0] == '\n'
    ensures CutAtMiddle(line + middle + rest, middle) == Some((line, rest))
  {
    var body := line + middle + rest;
    assert body == line + (middle + rest);
    IndexOfAfter(line, middle + rest, '\n');
    assert body[|line|..] == middle + rest;
    assert body[..|line|] == line;
    assert body[|line| + |middle|..] == rest;
  }

  /** Conversely, what a cut gives, joined by the middle, is the body. */
  lemma JoinedCutAtMiddle(body: string, middle: string)
    requires CutAtMiddle(body, middle).Some?
    ensures CutAtMiddle(body, middle).value.0 + middle + CutAtMiddle(body, middle).value.1 == body
  {
    var k := IndexOf(body, '\n');
    assert middle <= body[k..];
    assert body[k..k + |middle|] == body[k..][..|middle|] == middle;
    SliceThree(body, k, k + |middle|);
  }

  /** Reads a story prompt back: the dream (up to the first newline) and the
      joined elements text, or None when p is not of the template's shape. */
  function ParseStoryPrompt(p: string): (r: Option<(string, string)>)
    ensures r.Some? ==> '\n' !in r.value.0
  {
    match Between(p, StoryHead, StoryTail)
    case None => None
    case Some(body) => CutAtMiddle(body, StoryMiddle)
  }

  /** The numbers in the story template are the configured word target and
      scene count, written in decimal. */
  lemma StoryTemplateNumbers()
    ensures StoryHead == StoryIntro + NatToString(Config.TargetWords) + StoryTopic
    ensures StoryTail == StoryRules + NatToString(Config.Scenes) + StoryBeats
  {
    assert NatToString(5) == "5";
    assert NatToString(50) == "50";
  }

  /** Five pieces concatenated are the middle three framed by the outer two. */
  lemma Regroup(a: string, b: string, c: string, d: string, e: string)
    ensures a + b + c + d + e == a + (b + c + d) + e
  {
  }

  /** A dream without a newline and the joined elements are read back from
      the story prompt built from them. */
  lemma ParseBuildStoryPrompt(dream: string, elements: seq<string>)
    requires '\n' !in dream
    ensures ParseStoryPrompt(BuildStoryPrompt(dream, elements)) == Some((dream, Join(", ", elements)))
  {
    var body := dream + StoryMiddle + Join(", ", elements);
    Regroup(StoryHead, dream, StoryMiddle, Join(", ", elements), StoryTail);
    BetweenFrame(StoryHead, body, StoryTail);
    CutAtMiddleJoined(dream, StoryMiddle, Join(", ", elements));
  }

  /** A text framed by head and tail whose body cuts at the middle is the
      concatenation of the pieces. */
  lemma FramedCut(p: string, head: string, middle: string, tail: string)
    requires Between(p, head, tail).Some?
    requires CutAtMiddle(Between(p, head, tail).value, middle).Some?
    ensures var (line, rest) := CutAtMiddle(Between(p, head, tail).value, middle).value;
      head + line + middle + rest + tail == p
  {
    var body := Between(p, head, tail).value;
    var cut := CutAtMiddle(body, middle).value;
    FrameBetween(p, head, tail);
    JoinedCutAtMiddle(body, middle);
    Regroup(head, cut.0, middle, cut.1, tail);
  }

  /** Conversely, a prompt that parses is the prompt built from what it
      parses to, the elements text standing for a single element. */
  lemma BuildParseStoryPrompt(p: string)
    requires ParseStoryPrompt(p).Some?
    ensures var (dream, joined) := ParseStoryPrompt(p).value;
      BuildStoryPrompt(dream, [joined]) == p
  {
    FramedCut(p, StoryHead, StoryMiddle, StoryTail);
    var (dream, joined) := ParseStoryPrompt(p).value;
    assert Join(", ", [joined]) == joined;
  }

  /** `generate_story(runner, dream_input, core_elements)`: the runner's
      reply to the story prompt. The runner (the text model) is a parameter. */
  function GenerateStory(runner: string -> string, dream: string, elements: seq<string>): string {
    runner(BuildStoryPrompt(dream, elements))
  }

  /** The story is the runner's reply to a prompt that carries the dream and
      the elements joined with ", " (for a dream on one line, which is what
      the prompt can be read back from). */
  lemma GenerateStoryReply(runner: string -> string, dream: string, elements: seq<string>)
    ensures '\n' !in dream ==>
      exists p :: ParseStoryPrompt(p) == Some((dream, Join(", ", elements)))
               && GenerateStory(runner, dream, elements) == runner(p)
  {
    if '\n' !in dream {
      ParseBuildStoryPrompt(dream, elements);
    }
  }

  /** The compression template before the scene text (its lines keep the
      source's eight-space indentation and its typographic apostrophe). */
  const CompressHead: string :=
    "\n        Rewrite the following scene as a short, vivid description suitable for a storybook illustration."
    + "\n        Limit to 40 words."
    + "\n        Emphasize the main characters, setting, and what they\U{2019}re doing."
    + "\n        Use emotionally warm language that evokes visual clarity."
    + "\n        Scene: "

  const CompressTail: string := "\n        Summary:"

  /** The prompt `compress_scene_for_illustration` sends. */
  function CompressPrompt(scene: string): string {
    CompressHead + scene + CompressTail
  }

  /** The scene text a compression prompt carries. */
  function CompressedSceneOf(p: string): Option<string> {
    Between(p, CompressHead, CompressTail)
  }

  /** The scene is read back from any compression prompt, whatever it holds. */
  lemma CompressPromptRoundTrip(scene: string)
    ensures CompressedSceneOf(CompressPrompt(scene)) == Some(scene)
  {
    BetweenFrame(CompressHead, scene, CompressTail);
  }

  /** A text that reads as a compression prompt is the prompt for what it carries. */
  lemma CompressPromptOfParsed(p: string)
    requires CompressedSceneOf(p).Some?
    ensures CompressPrompt(CompressedSceneOf(p).value) == p
  {
    FrameBetween(p, CompressHead, CompressTail);
  }

  /** `compress_scene_for_illustration(scene_text, runner)`: the runner's
      reply to the compression prompt, stripped. */
  function CompressScene(scene: string, runner: string -> string): (r: string)
    ensures Strip(r) == r
  {
    StripIdempotent(runner(CompressPrompt(scene)));
    Strip(runner(CompressPrompt(scene)))
  }

  /** The summary is the stripped reply of the runner to a prompt that
      carries the scene. */
  lemma CompressSceneReply(scene: string, runner: string -> string)
    ensures exists p :: CompressedSceneOf(p) == Some(scene) && CompressScene(scene, runner) == Strip(runner(p))
  {
    CompressPromptRoundTrip(scene);
  }

  /** The illustration template before the scene text. */
  const ImageHead: string := "\nIllustration of a whimsical fantasy scene.\nFocus: "

  /** The illustration template after the scene text, with the style hint. */
  const ImageTail: string :=
    "\nStyle: " + Config.StyleHint + "\nMood: warm, curious, not dark"
    + "\nPalette: soft twilight pastels, cozy tones"
    + "\nComposition: clear focal subject, readable for children\n"

  /** `build_image_prompt(scene_text)` */
  function BuildImagePrompt(scene: string): string {
    ImageHead + scene + ImageTail
  }

  /** The focus text of an illustration prompt. */
  function FocusOf(p: string): Option<string> {
    Between(p, ImageHead, ImageTail)
  }

  /** Any scene text is read back as the focus of its illustration prompt. */
  lemma ImagePromptRoundTrip(scene: string)
    ensures FocusOf(BuildImagePrompt(scene)) == Some(scene)
  {
    BetweenFrame(ImageHead, scene, ImageTail);
  }

  /** A text with a focus is the illustration prompt for that focus. */
  lemma ImagePromptOfFocus(p: string)
    requires FocusOf(p).Some?
    ensures BuildImagePrompt(FocusOf(p).value) == p
  {
    FrameBetween(p, ImageHead, ImageTail);
  }

  /** Distinct scenes give distinct illustration prompts. */
  lemma ImagePromptInjective(a: string, b: string)
    requires BuildImagePrompt(a) == BuildImagePrompt(b)
    ensures a == b
  {
    ImagePromptRoundTrip(a);
    ImagePromptRoundTrip(b);
  }
}

=== FILE: registry.dfy ===
/** The model registry: two independent maps from a name to a handle, one
    for text runners and one for image pipelines. Loading a pipeline is
    outside the model; what is kept is the handle's model id, device and the
    generation settings the registry attaches to it. */
module Registry {
  import opened Wrappers

  /** The generation settings stored on an image pipeline. */
  datatype GenerationConfig = GenerationConfig(
    steps: int, guidance: real, resolution: (int, int), seed: int, negativePrompt: string)

  /** The parameters a caller supplies; any of them may be missing. */
  datatype Parameters = Parameters(
    steps: Option<int>, guidance: Option<real>, resolution: Option<(int, int)>,
    seed: Option<int>, negativePrompt: Option<string>)

  /** A loaded image pipeline: which model, on which device, with which settings. */
  datatype ImagePipe = ImagePipe(modelId: string, device: string, config: GenerationConfig)

  /** The registry; `Text` is the type of text runner handles. */
  datatype Registry<Text> = Registry(device: string, text: map<string, Text>, image: map<string, ImagePipe>)

  /** The device a registry uses when none is given. */
  const DefaultDevice: string := "cuda"

  /** `ModelRegistry(device)`: both maps empty. */
  function NewRegistry<Text>(device: string): (r: Registry<Text>)
    ensures r.text == map[] && r.image == map[] && r.device == device
  {
    Registry(device, map[], map[])
  }

  /** The settings stored with a pipeline: each supplied parameter, or its
      default (30 steps, guidance 7.5, 768x512, seed 42, no negative prompt). */
  function ConfigFrom(p: Parameters): (c: GenerationConfig)
    ensures c.steps == (if p.steps.Some? then p.steps.value else 30)
    ensures c.guidance == (if p.guidance.Some? then p.guidance.value else 7.5)
    ensures c.resolution == (if p.resolution.Some? then p.resolution.value else (768, 512))
    ensures c.seed == (if p.seed.Some? then p.seed.value else 42)
    ensures c.negativePrompt == (if p.negativePrompt.Some? then p.negativePrompt.value else "")
  {
    GenerationConfig(
      p.steps.GetOr(30), p.guidance.GetOr(7.5), p.resolution.GetOr((768, 512)),
      p.seed.GetOr(42), p.negativePrompt.GetOr(""))
  }

  /** With no parameters at all, the stored settings are the defaults. */
  lemma ConfigDefaults()
    ensures ConfigFrom(Parameters(None, None, None, None, None))
      == GenerationConfig(30, 7.5, (768, 512), 42, "")
  {
  }

  /** With every parameter supplied, the stored settings are exactly those. */
  lemma ConfigAllSupplied(c: GenerationConfig)
    ensures ConfigFrom(Parameters(Some(c.steps), Some(c.guidance), Some(c.resolution),
                                  Some(c.seed), Some(c.negativePrompt))) == c
  {
  }

  /** `register_text_model(name, runner)`: a later registration replaces an
      earlier one. */
  function RegisterText<Text>(r: Registry<Text>, name: string, runner: Text): (r': Registry<Text>)
    ensures r'.image == r.image && r'.device == r.device
    ensures name in r'.text && r'.text[name] == runner
    ensures forall n :: n != name ==> (n in r'.text <==> n in r.text)
    ensures forall n :: n != name && n in r.text ==> r'.text[n] == r.text[n]
  {
    r.(text := r.text[name := runner])
  }

  /** `get_text_model(name)`: `None` for a name never registered. */
  function GetText<Text>(r: Registry<Text>, name: string): (h: Option<Text>)
    ensures h.Some? <==> name in r.text
    ensures h.Some? ==> h.value == r.text[name]
  {
    if name in r.text then Some(r.text[name]) else None
  }

  /** `register_image_model(name, model_id, parameters)`: loads the pipeline
      on the registry's device and stores it with its settings. */
  function RegisterImage<Text>(r: Registry<Text>, name: string, modelId: string, p: Parameters): (r': Registry<Text>)
    ensures r'.text == r.text && r'.device == r.device
    ensures name in r'.image && r'.image[name] == ImagePipe(modelId, r.device, ConfigFrom(p))
    ensures forall n :: n != name ==> (n in r'.image <==> n in r.image)
    ensures forall n :: n != name && n in r.image ==> r'.image[n] == r.image[n]
  {
    r.(image := r.image[name := ImagePipe(modelId, r.device, ConfigFrom(p))])
  }

  /** `get_image_model(name)`: `None` for a name never registered. */
  function GetImage<Text>(r: Registry<Text>, name: string): (h: Option<ImagePipe>)
    ensures h.Some? <==> name in r.image
    ensures h.Some? ==> h.value == r.image[name]
  {
    if name in r.image then Some(r.image[name]) else None
  }

  /** A registered text runner is found under its name; the last
      registration under a name wins. */
  lemma TextRoundTrip<Text>(r: Registry<Text>, name: string, a: Text, b: Text)
    ensures GetText(RegisterText(r, name, a), name) == Some(a)
    ensures GetText(RegisterText(RegisterText(r, name, a), name, b), name) == Some(b)
  {
  }

  /** Registering a text runner leaves every image lookup and every other
      text lookup as it was, and the other way round. */
  lemma KindsIndependent<Text>(r: Registry<Text>, name: string, other: string, runner: Text, modelId: string, p: Parameters)
    ensures GetImage(RegisterText(r, name, runner), other) == GetImage(r, other)
    ensures GetText(RegisterImage(r, name, modelId, p), other) == GetText(r, other)
    ensures other != name ==> GetText(RegisterText(r, name, runner), other) == GetText(r, other)
    ensures other != name ==> GetImage(RegisterImage(r, name, modelId, p), other) == GetImage(r, other)
  {
  }

  /** An image pipeline is found under its name with the merged settings. */
  lemma ImageRoundTrip<Text>(r: Registry<Text>, name: string, modelId: string, p: Parameters)
    ensures GetImage(RegisterImage(r, name, modelId, p), name)
      == Some(ImagePipe(modelId, r.device, ConfigFrom(p)))
  {
  }

  /** A fresh registry knows no model of either kind. */
  lemma FreshRegistryEmpty<Text>(device: string, name: string)
    ensures GetText(NewRegistry<Text>(device), name).None?
    ensures GetImage(NewRegistry<Text>(device), name).None?
  {
  }
}

=== FILE: scenes.dfy ===
/** Scene splitting (`split_scenes`) and the paragraph lists both storybook
    renderers build from a story: the story is cut at every newline, blank
    lines are dropped, and nothing else separates paragraphs. */
module Scenes {
  import opened Wrappers
  import opened Strings

  /** Python's `[f(p) for p in lines if keep(p)]`. */
  function Comprehension(lines: seq<string>, f: string -> string, keep: string -> bool): (ps: seq<string>)
    ensures |ps| <= |lines|
  {
    if |lines| == 0 then []
    else (if keep(lines[0]) then [f(lines[0])] else []) + Comprehension(lines[1..], f, keep)
  }

  /** The truth value of `p.strip()`: the line is not blank. */
  predicate NonBlank(p: string) {
    |Strip(p)| > 0
  }

  function Identity(p: string): string {
    p
  }

  /** `[p.strip() for p in story.split("\n") if p.strip()]`: the paragraphs
      `render_storybook_html` and `split_scenes` use. */
  function Paragraphs(story: string): seq<string> {
    Comprehension(Split(story, '\n'), Strip, NonBlank)
  }

  /** `[p for p in story.split("\n") if p.strip()]`: the paragraphs
      `render_storybook_html_alt` uses, not stripped. */
  function RawParagraphs(story: string): seq<string> {
    Comprehension(Split(story, '\n'), Identity, NonBlank)
  }

  /** Python's `s[:k]`, where a negative k counts from the end. */
  function PyPrefix<T>(s: seq<T>, k: int): (r: seq<T>)
    ensures |r| <= |s| && r == s[..|r|]
    ensures k >= 0 ==> |r| == Min(k, |s|)
    ensures k < 0 ==> |r| == Max(0, |s| + k)
  {
    if k >= 0 then s[..Min(k, |s|)] else s[..Max(0, |s| + k)]
  }

  /** `split_scenes(story, desired)`: a prefix of the paragraphs, `desired`
      long when there are enough (Python slice rules for a negative count),
      every scene non-empty and stripped. */
  function SplitScenes(story: string, desired: int): (scenes: seq<string>)
    ensures |scenes| <= |Paragraphs(story)| && scenes == Paragraphs(story)[..|scenes|]
    ensures desired >= 0 ==> |scenes| == Min(|Paragraphs(story)|, desired)
    ensures desired < 0 ==> |scenes| == Max(0, |Paragraphs(story)| + desired)
    ensures forall i :: 0 <= i < |scenes| ==> |scenes[i]| > 0 && Strip(scenes[i]) == scenes[i]
  {
    var paragraphs := Paragraphs(story);
    var scenes := if |paragraphs| >= desired then PyPrefix(paragraphs, desired) else paragraphs;
    assert scenes == paragraphs[..|scenes|];
    forall i | 0 <= i < |scenes|
      ensures |scenes[i]| > 0 && Strip(scenes[i]) == scenes[i]
    {
      ParagraphIsStripped(story, i);
    }
    scenes
  }

  /** A string without surrounding whitespace strips to itself. */
  lemma StripFixed(s: string)
    requires |s| > 0 ==> !IsSpace(s[0]) && !IsSpace(s[|s| - 1])
    ensures Strip(s) == s
  {
    if |s| > 0 {
      assert SkipSpace(s, 0) == 0;
      assert SkipSpaceBack(s, 0, |s|) == |s|;
      assert s[0..|s|] == s;
    }
  }

  /** A comprehension over a concatenation is the concatenation of the two. */
  lemma {:induction false} ComprehensionAppend(a: seq<string>, b: seq<string>, f: string -> string, keep: string -> bool)
    ensures Comprehension(a + b, f, keep) == Comprehension(a, f, keep) + Comprehension(b, f, keep)
    decreases |a|
  {
    if |a| > 0 {
      ComprehensionAppend(a[1..], b, f, keep);
      assert (a + b)[1..] == a[1..] + b;
    } else {
      assert a + b == b;
    }
  }

  /** A kept line j lands in the result, as f of itself, at the position
      counting the kept lines before it. */
  lemma ComprehensionOfLine(lines: seq<string>, f: string -> string, keep: string -> bool, j: nat)
    requires j < |lines| && keep(lines[j])
    ensures var k := |Comprehension(lines[..j], f, keep)|;
      k < |Comprehension(lines, f, keep)| && Comprehension(lines, f, keep)[k] == f(lines[j])
  {
    assert lines == lines[..j] + ([lines[j]] + lines[j + 1..]);
    ComprehensionAppend(lines[..j], [lines[j]] + lines[j + 1..], f, keep);
    ComprehensionAppend([lines[j]], lines[j + 1..], f, keep);
    assert Comprehension([lines[j]], f, keep) == [f(lines[j])];
  }

  /** Conversely, element k of the result is f of a kept line that has
      exactly k kept lines before it. */
  lemma {:induction false} LineOfComprehension(lines: seq<string>, f: string -> string, keep: string -> bool, k: nat)
    requires k < |Comprehension(lines, f, keep)|
    ensures exists j :: (0 <= j < |lines| && keep(lines[j])
                         && |Comprehension(lines[..j], f, keep)| == k
                         && Comprehension(lines, f, keep)[k] == f(lines[j]))
    decreases |lines|
  {
    var head := if keep(lines[0]) then [f(lines[0])] else [];
    assert Comprehension(lines, f, keep) == head + Comprehension(lines[1..], f, keep);
    assert Comprehension(lines[..1], f, keep) == head by {
      assert lines[..1][1..] == [];
    }
    if keep(lines[0]) && k == 0 {
      assert lines[..0] == [];
    } else {
      var k' := k - |head|;
      LineOfComprehension(lines[1..], f, keep, k');
      var j' :| 0 <= j' < |lines[1..]| && keep(lines[1..][j'])
        && |Comprehension(lines[1..][..j'], f, keep)| == k'
        && Comprehension(lines[1..], f, keep)[k'] == f(lines[1..][j']);
      assert lines[..j' + 1] == lines[..1] + lines[1..][..j'];
      ComprehensionAppend(lines[..1], lines[1..][..j'], f, keep);
      assert lines[j' + 1] == lines[1..][j'];
      assert |Comprehension(lines[..j' + 1], f, keep)| == k;
      assert Comprehension(lines, f, keep)[k] == f(lines[j' + 1]);
    }
  }

  /** Applying f while filtering is the same as filtering first and applying
      f to each kept line afterwards. */
  lemma {:induction false} ComprehensionMap(lines: seq<string>, f: string -> string, keep: string -> bool)
    ensures |Comprehension(lines, f, keep)| == |Comprehension(lines, Identity, keep)|
    ensures forall i :: 0 <= i < |Comprehension(lines, f, keep)| ==>
      Comprehension(lines, f, keep)[i] == f(Comprehension(lines, Identity, keep)[i])
    decreases |lines|
  {
    if |lines| > 0 {
      ComprehensionMap(lines[1..], f, keep);
    }
  }

  /** Every paragraph is non-empty and has no surrounding whitespace left. */
  lemma ParagraphIsStripped(story: string, i: nat)
    requires i < |Paragraphs(story)|
    ensures |Paragraphs(story)[i]| > 0 && Strip(Paragraphs(story)[i]) == Paragraphs(story)[i]
  {
    var lines := Split(story, '\n');
    LineOfComprehension(lines, Strip, NonBlank, i);
    var j :| 0 <= j < |lines| && NonBlank(lines[j]) && Paragraphs(story)[i] == Strip(lines[j]);
    StripFixed(Strip(lines[j]));
  }

  /** Line j of the story gives a paragraph iff it is not blank; the
      paragraph is the stripped line, at the position counting the non-blank
      lines before it. */
  lemma ParagraphOfLine(story: string, j: nat)
    requires j < |Split(story, '\n')|
    ensures var lines := Split(story, '\n');
      var k := |Comprehension(lines[..j], Strip, NonBlank)|;
      (k < |Paragraphs(story)| && |Comprehension(lines[..j + 1], Strip, NonBlank)| == k + 1)
        <==> NonBlank(lines[j])
    ensures var lines := Split(story, '\n');
      var k := |Comprehension(lines[..j], Strip, NonBlank)|;
      NonBlank(lines[j]) ==> k < |Paragraphs(story)| && Paragraphs(story)[k] == Strip(lines[j])
  {
    var lines := Split(story, '\n');
    assert lines[..j + 1] == lines[..j] + [lines[j]];
    ComprehensionAppend(lines[..j], [lines[j]], Strip, NonBlank);
    assert Comprehension([lines[j]], Strip, NonBlank) == (if NonBlank(lines[j]) then [Strip(lines[j])] else []);
    if NonBlank(lines[j]) {
      ComprehensionOfLine(lines, Strip, NonBlank, j);
    }
  }

  /** Every paragraph is the stripped text of a non-blank line of the story,
      and paragraph k comes from the line with k non-blank lines before it. */
  lemma LineOfParagraph(story: string, k: nat)
    requires k < |Paragraphs(story)|
    ensures exists j :: (0 <= j < |Split(story, '\n')| && NonBlank(Split(story, '\n')[j])
                         && |Comprehension(Split(story, '\n')[..j], Strip, NonBlank)| == k
                         && Paragraphs(story)[k] == Strip(Split(story, '\n')[j]))
  {
    LineOfComprehension(Split(story, '\n'), Strip, NonBlank, k);
  }

  /** The alternative renderer keeps the same lines, unstripped: stripping
      them gives exactly the paragraphs of the main renderer. */
  lemma RawParagraphsStripToParagraphs(story: string)
    ensures |RawParagraphs(story)| == |Paragraphs(story)|
    ensures forall i :: 0 <= i < |RawParagraphs(story)| ==>
      Strip(RawParagraphs(story)[i]) == Paragraphs(story)[i]
  {
    ComprehensionMap(Split(story, '\n'), Strip, NonBlank);
  }

  /** `split_scenes` returns all paragraphs exactly when there are no more
      than requested (or none at all). */
  lemma SplitScenesAllIffFew(story: string, desired: int)
    ensures SplitScenes(story, desired) == Paragraphs(story)
      <==> |Paragraphs(story)| <= desired || |Paragraphs(story)| == 0
  {
  }

  /** The example story's lines: two lines of one paragraph, a blank line,
      and a line with surrounding spaces. */
  lemma ExampleLines()
    ensures Split("The fox woke up\nand yawned.\n\n  It slept.  ", '\n')
      == ["The fox woke up", "and yawned.", "", "  It slept.  "]
  {
    var lines := ["The fox woke up", "and yawned.", "", "  It slept.  "];
    ExampleJoin();
    assert forall i :: 0 <= i < |lines| ==> '\n' !in lines[i];
    SplitJoin(lines, '\n');
  }

  lemma ExampleJoin()
    ensures Join("\n", ["The fox woke up", "and yawned.", "", "  It slept.  "])
      == "The fox woke up\nand yawned.\n\n  It slept.  "
  {
    JoinFour("\n", "The fox woke up", "and yawned.", "", "  It slept.  ");
  }

  lemma ExampleStripFixed()
    ensures Strip("The fox woke up") == "The fox woke up"
    ensures Strip("and yawned.") == "and yawned."
  {
    StripFixed("The fox woke up");
    StripFixed("and yawned.");
  }

  lemma ExampleStripSpaced()
    ensures Strip("  It slept.  ") == "It slept."
  {
    var l3 := "  It slept.  ";
    assert IsSpace(l3[0]) && IsSpace(l3[1]) && !IsSpace(l3[2]);
    assert SkipSpace(l3, 0) == 2;
    assert !IsSpace(l3[10]) && IsSpace(l3[11]) && IsSpace(l3[12]);
    assert SkipSpaceBack(l3, 2, |l3|) == 11;
  }

  /** Keeping three lines of four, the third one dropped. */
  lemma ComprehensionDropThird(a: string, b: string, c: string, d: string, f: string -> string, keep: string -> bool)
    requires keep(a) && keep(b) && !keep(c) && keep(d)
    ensures Comprehension([a, b, c, d], f, keep) == [f(a), f(b), f(d)]
  {
    assert [a, b, c, d][1..] == [b, c, d];
    assert [b, c, d][1..] == [c, d];
    assert [c, d][1..] == [d];
    assert [d][1..] == [];
    assert Comprehension([d], f, keep) == [f(d)];
    assert Comprehension([c, d], f, keep) == [f(d)];
    assert Comprehension([b, c, d], f, keep) == [f(b), f(d)];
  }

  /** Splitting is per line, not per blank-line paragraph: a paragraph that
      runs over two lines gives two scenes, and surrounding blanks go. */
  lemma MultiLineParagraphGivesSeveralScenes()
    ensures SplitScenes("The fox woke up\nand yawned.\n\n  It slept.  ", 4)
      == ["The fox woke up", "and yawned.", "It slept."]
  {
    var story := "The fox woke up\nand yawned.\n\n  It slept.  ";
    var l0, l1, l2, l3 := "The fox woke up", "and yawned.", "", "  It slept.  ";
    ExampleLines();
    ExampleStripFixed();
    ExampleStripSpaced();
    assert Strip(l2) == "";
    ComprehensionDropThird(l0, l1, l2, l3, Strip, NonBlank);
    assert Paragraphs(story) == [l0, l1, "It slept."];
  }
}

=== FILE: storybook.dfy ===
/** The scene lists the two storybook renderers build before any HTML is
    produced: each non-blank paragraph of the story in order, with the base
    name of the image placed on it by the layout rule. */
module Storybook {
  import opened Wrappers
  import opened Strings
  import opened Paths
  import opened Scenes
  import opened Placement

  /** One entry of the `scenes` list handed to the page template. */
  datatype SceneView = SceneView(text: string, image: Option<string>)

  /** The `<img>` tag of the alternative page: its `src`, and the 1-based
      image number its alt text shows (AltText). */
  datatype ImageLine = ImageLine(src: string, number: nat)

  /** One scene of the alternative page: the paragraph as written, and the
      image tag when an image is placed on it. */
  datatype AltScene = AltScene(text: string, image: Option<ImageLine>)

  /** The image index the layout places on paragraph i, known to be a valid
      index into the m paths. */
  function ImageIndex(n: nat, m: nat, i: nat): (r: Option<nat>)
    requires i < n
    ensures r.Some? ==> r.value < m
    ensures r == Layout(n, m)[i]
  {
    match Layout(n, m)[i]
    case None => None
    case Some(k) =>
      LayoutHolds(n, m, i, k);
      Some(k)
  }

  /** The base name of the image on paragraph i, if any. */
  function ImageNameAt(paths: seq<string>, n: nat, i: nat): Option<string>
    requires i < n
  {
    match ImageIndex(n, |paths|, i)
    case None => None
    case Some(k) => Some(Basename(paths[k]))
  }

  /** Paragraph i shows an image exactly when the layout places one there,
      and then it is the base name of that image's path. */
  lemma ImageNameAtLayout(paths: seq<string>, n: nat, i: nat)
    requires i < n
    ensures ImageNameAt(paths, n, i).Some? <==> Layout(n, |paths|)[i].Some?
    ensures Layout(n, |paths|)[i].Some? ==>
      && Layout(n, |paths|)[i].value < |paths|
      && ImageNameAt(paths, n, i) == Some(Basename(paths[Layout(n, |paths|)[i].value]))
  {
  }

  /** One step of the renderers' loop: with `fig` images placed before
      paragraph i, the paragraph gets image `fig` exactly when one is left
      and the paragraph ends a stride, and the counter moves on by one. */
  lemma SceneStep(paths: seq<string>, n: nat, i: nat, fig: nat)
    requires i < n && fig == FigAt(n, |paths|, i)
    ensures fig < |paths| && (i + 1) % Stride(n, |paths|) == 0 ==>
      && ImageIndex(n, |paths|, i) == Some(fig)
      && ImageNameAt(paths, n, i) == Some(Basename(paths[fig]))
      && FigAt(n, |paths|, i + 1) == fig + 1
    ensures !(fig < |paths| && (i + 1) % Stride(n, |paths|) == 0) ==>
      && ImageIndex(n, |paths|, i).None?
      && ImageNameAt(paths, n, i).None?
      && FigAt(n, |paths|, i + 1) == fig
  {
    SlotAt(n, |paths|, i);
  }

  /** The first i scenes of the page: each paragraph with the image the
      layout gives it. */
  function Views(paragraphs: seq<string>, paths: seq<string>, i: nat): (v: seq<SceneView>)
    requires i <= |paragraphs|
    ensures |v| == i
  {
    if i == 0 then []
    else Views(paragraphs, paths, i - 1) + [SceneView(paragraphs[i - 1], ImageNameAt(paths, |paragraphs|, i - 1))]
  }

  /** Scene j of the first i is paragraph j with its image. */
  lemma {:induction false} ViewsAt(paragraphs: seq<string>, paths: seq<string>, i: nat, j: nat)
    requires j < i <= |paragraphs|
    ensures Views(paragraphs, paths, i)[j] == SceneView(paragraphs[j], ImageNameAt(paths, |paragraphs|, j))
    decreases i
  {
    var prev := Views(paragraphs, paths, i - 1);
    var last := SceneView(paragraphs[i - 1], ImageNameAt(paths, |paragraphs|, i - 1));
    assert Views(paragraphs, paths, i) == prev + [last];
    if j < i - 1 {
      ViewsAt(paragraphs, paths, i - 1, j);
      assert (prev + [last])[j] == prev[j];
    }
  }

  /** The body of `render_storybook_html`'s loop at paragraph i, with `fig`
      images used so far: the image the paragraph shows, and the counter
      for the next paragraph. */
  method Slot(paths: seq<string>, n: nat, i: nat, fig: nat) returns (image: Option<string>, fig': nat)
    requires i < n && fig == FigAt(n, |paths|, i)
    ensures image == ImageNameAt(paths, n, i)
    ensures fig' == FigAt(n, |paths|, i + 1) && fig' <= |paths|
  {
    SceneStep(paths, n, i, fig);
    image, fig' := None, fig;
    if fig < |paths| && (i + 1) % Stride(n, |paths|) == 0 {
      image, fig' := Some(Basename(paths[fig])), fig + 1;
    }
  }

  /** The loop of `render_storybook_html` over the paragraphs: the image
      counter stays within the images, follows FigAt, and the scene list
      keeps every paragraph with the image the layout gives it. */
  method BuildScenes(paragraphs: seq<string>, paths: seq<string>) returns (scenes: seq<SceneView>)
    ensures |scenes| == |paragraphs|
    ensures forall i :: 0 <= i < |scenes| ==>
      scenes[i] == SceneView(paragraphs[i], ImageNameAt(paths, |paragraphs|, i))
  {
    var n, m := |paragraphs|, |paths|;
    scenes := [];
    var fig := 0;
    var i := 0;
    while i < n
      invariant 0 <= i <= n
      invariant fig == FigAt(n, m, i) && fig <= m
      invariant scenes == Views(paragraphs, paths, i)
    {
      var image;
      image, fig := Slot(paths, n, i, fig);
      scenes := scenes + [SceneView(paragraphs[i], image)];
      i := i + 1;
    }
    forall j | 0 <= j < n
      ensures scenes[j] == SceneView(paragraphs[j], ImageNameAt(paths, n, j))
    {
      ViewsAt(paragraphs, paths, n, j);
    }
  }

  /** The scene list `render_storybook_html` gives its template. */
  method RenderScenes(story: string, paths: seq<string>) returns (scenes: seq<SceneView>)
    ensures |scenes| == |Paragraphs(story)|
    ensures forall i :: 0 <= i < |scenes| ==>
      scenes[i] == SceneView(Paragraphs(story)[i], ImageNameAt(paths, |Paragraphs(story)|, i))
  {
    scenes := BuildScenes(Paragraphs(story), paths);
  }

  /** The tag of image k on the alternative page: its base name, numbered
      k + 1. */
  function AltImage(paths: seq<string>, k: nat): ImageLine
    requires k < |paths|
  {
    ImageLine(Basename(paths[k]), k + 1)
  }

  /** The `alt` attribute of an image tag: `Scene <number>`. */
  function AltText(line: ImageLine): string {
    "Scene " + NatToString(line.number)
  }

  /** The alt text starts with "Scene " and the image number reads back
      from the rest. */
  lemma AltTextNumber(line: ImageLine)
    ensures |AltText(line)| > 6 && AltText(line)[..6] == "Scene "
    ensures AllDigits(AltText(line)[6..]) && ParseDecimal(AltText(line)[6..]) == line.number
  {
    assert AltText(line)[6..] == NatToString(line.number);
    ParseNatToString(line.number);
  }

  /** The image tag of the alternative page at paragraph i. */
  function AltImageAt(paths: seq<string>, n: nat, i: nat): Option<ImageLine>
    requires i < n
  {
    match ImageIndex(n, |paths|, i)
    case None => None
    case Some(k) => Some(AltImage(paths, k))
  }

  /** One step of the alternative renderer's loop: the same slot rule as
      SceneStep, giving the image line of AltImageAt. */
  lemma AltSceneStep(paths: seq<string>, n: nat, i: nat, fig: nat)
    requires i < n && fig == FigAt(n, |paths|, i)
    ensures fig < |paths| && (i + 1) % Stride(n, |paths|) == 0 ==>
      AltImageAt(paths, n, i) == Some(AltImage(paths, fig)) && FigAt(n, |paths|, i + 1) == fig + 1
    ensures !(fig < |paths| && (i + 1) % Stride(n, |paths|) == 0) ==>
      AltImageAt(paths, n, i).None? && FigAt(n, |paths|, i + 1) == fig
  {
    SceneStep(paths, n, i, fig);
  }

  /** The first i scenes of the alternative page. */
  function AltViews(paragraphs: seq<string>, paths: seq<string>, i: nat): (v: seq<AltScene>)
    requires i <= |paragraphs|
    ensures |v| == i
  {
    if i == 0 then []
    else AltViews(paragraphs, paths, i - 1) + [AltScene(paragraphs[i - 1], AltImageAt(paths, |paragraphs|, i - 1))]
  }

  /** Scene j of the first i is paragraph j with its image. */
  lemma {:induction false} AltViewsAt(paragraphs: seq<string>, paths: seq<string>, i: nat, j: nat)
    requires j < i <= |paragraphs|
    ensures AltViews(paragraphs, paths, i)[j] == AltScene(paragraphs[j], AltImageAt(paths, |paragraphs|, j))
    decreases i
  {
    var prev := AltViews(paragraphs, paths, i - 1);
    var last := AltScene(paragraphs[i - 1], AltImageAt(paths, |paragraphs|, i - 1));
    assert AltViews(paragraphs, paths, i) == prev + [last];
    if j < i - 1 {
      AltViewsAt(paragraphs, paths, i - 1, j);
      assert (prev + [last])[j] == prev[j];
    }
  }

  /** The body of `render_storybook_html_alt`'s loop at paragraph i: the
      image line the paragraph shows, and the counter for the next one. */
  method AltSlot(paths: seq<string>, n: nat, i: nat, fig: nat) returns (image: Option<ImageLine>, fig': nat)
    requires i < n && fig == FigAt(n, |paths|, i)
    ensures image == AltImageAt(paths, n, i)
    ensures fig' == FigAt(n, |paths|, i + 1) && fig' <= |paths|
  {
    AltSceneStep(paths, n, i, fig);
    image, fig' := None, fig;
    if fig < |paths| && (i + 1) % Stride(n, |paths|) == 0 {
      image, fig' := Some(AltImage(paths, fig)), fig + 1;
    }
  }

  /** The loop of `render_storybook_html_alt` over its paragraphs: each
      paragraph as written, with the image line the layout gives it. */
  method BuildAltScenes(paragraphs: seq<string>, paths: seq<string>) returns (scenes: seq<AltScene>)
    ensures |scenes| == |paragraphs|
    ensures forall i :: 0 <= i < |scenes| ==>
      scenes[i] == AltScene(paragraphs[i], AltImageAt(paths, |paragraphs|, i))
  {
    var n, m := |paragraphs|, |paths|;
    scenes := [];
    var fig := 0;
    var i := 0;
    while i < n
      invariant 0 <= i <= n
      invariant fig == FigAt(n, m, i) && fig <= m
      invariant scenes == AltViews(paragraphs, paths, i)
    {
      var image;
      image, fig := AltSlot(paths, n, i, fig);
      scenes := scenes + [AltScene(paragraphs[i], image)];
      i := i + 1;
    }
    forall j | 0 <= j < n
      ensures scenes[j] == AltScene(paragraphs[j], AltImageAt(paths, n, j))
    {
      AltViewsAt(paragraphs, paths, n, j);
    }
  }

  /** The scene list of `render_storybook_html_alt`, over the unstripped
      paragraphs. */
  method RenderAltScenes(story: string, paths: seq<string>) returns (scenes: seq<AltScene>)
    ensures |scenes| == |RawParagraphs(story)|
    ensures forall i :: 0 <= i < |scenes| ==>
      scenes[i] == AltScene(RawParagraphs(story)[i], AltImageAt(paths, |RawParagraphs(story)|, i))
  {
    scenes := BuildAltScenes(RawParagraphs(story), paths);
  }

  /** Both renderers put the same image on the same paragraph; the
      alternative one shows the paragraph unstripped and labels image k as
      "Scene k+1". */
  lemma AltMatchesMain(story: string, paths: seq<string>, i: nat)
    requires i < |Paragraphs(story)|
    ensures i < |RawParagraphs(story)|
    ensures Strip(RawParagraphs(story)[i]) == Paragraphs(story)[i]
    ensures AltImageAt(paths, |RawParagraphs(story)|, i).Some?
      <==> ImageNameAt(paths, |Paragraphs(story)|, i).Some?
    ensures AltImageAt(paths, |RawParagraphs(story)|, i).Some? ==>
      && AltImageAt(paths, |RawParagraphs(story)|, i).value.src == ImageNameAt(paths, |Paragraphs(story)|, i).value
      && AltImageAt(paths, |RawParagraphs(story)|, i).value.number == Layout(|RawParagraphs(story)|, |paths|)[i].value + 1
  {
    RawParagraphsStripToParagraphs(story);
  }

  /** Counting the scenes that show an image. */
  function Illustrated(scenes: seq<SceneView>): nat {
    if |scenes| == 0 then 0 else (if scenes[0].image.Some? then 1 else 0) + Illustrated(scenes[1..])
  }

  lemma {:induction false} IllustratedPlaced(scenes: seq<SceneView>, slots: seq<Option<nat>>)
    requires |scenes| == |slots|
    requires forall i :: 0 <= i < |scenes| ==> (scenes[i].image.Some? <==> slots[i].Some?)
    ensures Illustrated(scenes) == Placed(slots)
  {
    if |scenes| > 0 {
      IllustratedPlaced(scenes[1..], slots[1..]);
    }
  }

  /** A rendered story shows min(M, N) images for N paragraphs and M paths:
      none at all when there are no paths. */
  lemma RenderedImageCount(story: string, paths: seq<string>, scenes: seq<SceneView>)
    requires |scenes| == |Paragraphs(story)|
    requires forall i :: 0 <= i < |scenes| ==>
      scenes[i] == SceneView(Paragraphs(story)[i], ImageNameAt(paths, |Paragraphs(story)|, i))
    ensures Illustrated(scenes) == Min(|paths|, |Paragraphs(story)|)
  {
    var n := |Paragraphs(story)|;
    IllustratedPlaced(scenes, Layout(n, |paths|));
    LayoutCount(n, |paths|);
  }
}

=== FILE: strings.dfy ===
/** The Python string primitives the program relies on: whitespace,
    `str.strip`, `str.split(sep)`, `sep.join`, `str.split()` and the decimal
    rendering of a non-negative `int` in an f-string. */
module Strings {
  import opened Wrappers

  /** Python's `str.isspace` on one character: exactly the characters that
      `strip()` removes and `split()` (without a separator) splits on. */
  predicate IsSpace(c: char) {
    || ('\t' <= c <= '\r')
    || ('\U{1C}' <= c <= ' ')
    || c == '\U{85}'
    || c == '\U{A0}'
    || c == '\U{1680}'
    || ('\U{2000}' <= c <= '\U{200A}')
    || c == '\U{2028}'
    || c == '\U{2029}'
    || c == '\U{202F}'
    || c == '\U{205F}'
    || c == '\U{3000}'
  }

  predicate AllSpace(s: string) {
    forall i :: 0 <= i < |s| ==> IsSpace(s[i])
  }

  predicate NoSpace(s: string) {
    forall i :: 0 <= i < |s| ==> !IsSpace(s[i])
  }

  /** The index of the first non-whitespace character of s at or after i,
      or |s| when there is none. */
  function SkipSpace(s: string, i: nat): (k: nat)
    requires i <= |s|
    ensures i <= k <= |s|
    ensures forall j :: i <= j < k ==> IsSpace(s[j])
    ensures k < |s| ==> !IsSpace(s[k])
    decreases |s| - i
  {
    if i < |s| && IsSpace(s[i]) then SkipSpace(s, i + 1) else i
  }

  /** The end of s[a..j] once its trailing whitespace is dropped. */
  function SkipSpaceBack(s: string, a: nat, j: nat): (k: nat)
    requires a <= j <= |s|
    ensures a <= k <= j
    ensures forall i :: k <= i < j ==> IsSpace(s[i])
    ensures k > a ==> !IsSpace(s[k - 1])
  {
    if j > a && IsSpace(s[j - 1]) then SkipSpaceBack(s, a, j - 1) else j
  }

  /** r is s with the whitespace before offset a and after offset a + |r| removed. */
  predicate Trimmed(s: string, a: nat, r: string) {
    && a + |r| <= |s|
    && r == s[a..a + |r|]
    && (forall i :: 0 <= i < a ==> IsSpace(s[i]))
    && (forall i :: a + |r| <= i < |s| ==> IsSpace(s[i]))
  }

  /** `s.strip()`: s without leading and trailing whitespace; the result
      starts and ends with a non-whitespace character. */
  function Strip(s: string): (r: string)
    ensures |r| <= |s|
    ensures |r| > 0 ==> !IsSpace(r[0]) && !IsSpace(r[|r| - 1])
  {
    var a := SkipSpace(s, 0);
    s[a..SkipSpaceBack(s, a, |s|)]
  }

  /** What `strip()` removes is whitespace and nothing else, and it leaves
      nothing exactly when s is all whitespace. */
  lemma StripRemovesOnlySpace(s: string)
    ensures exists a: nat :: Trimmed(s, a, Strip(s))
    ensures |Strip(s)| == 0 <==> AllSpace(s)
  {
    var a := SkipSpace(s, 0);
    var b := SkipSpaceBack(s, a, |s|);
    assert Strip(s) == s[a..b];
    assert Trimmed(s, a, s[a..b]);
    if a < |s| {
      assert !IsSpace(s[a]);
      assert b > a;
      assert !AllSpace(s);
    }
  }

  /** Stripping is idempotent: a stripped string has nothing left to strip. */
  lemma StripIdempotent(s: string)
    ensures Strip(Strip(s)) == Strip(s)
  {
    var r := Strip(s);
    assert SkipSpace(r, 0) == 0;
    assert SkipSpaceBack(r, 0, |r|) == |r|;
    assert r[0..|r|] == r;
  }

  // ---------------------------------------------------------------------------
  // str.split(sep) and sep.join(parts)
  // ---------------------------------------------------------------------------

  function Occurrences(s: string, c: char): nat {
    if |s| == 0 then 0 else (if s[0] == c then 1 else 0) + Occurrences(s[1..], c)
  }

  /** `s.split(sep)` for a one-character separator: the pieces between
      consecutive separators. There is always one more piece than there are
      separators, so the empty string gives `[""]`. */
  function Split(s: string, sep: char): (parts: seq<string>)
    ensures |parts| == Occurrences(s, sep) + 1
    ensures forall i :: 0 <= i < |parts| ==> sep !in parts[i]
  {
    if |s| == 0 then [""]
    else
      var rest := Split(s[1..], sep);
      if s[0] == sep then [""] + rest
      else [[s[0]] + rest[0]] + rest[1..]
  }

  /** `sep.join(parts)` */
  function Join(sep: string, parts: seq<string>): string {
    if |parts| == 0 then ""
    else if |parts| == 1 then parts[0]
    else parts[0] + sep + Join(sep, parts[1..])
  }

  /** A string is its three slices at i and j put back together. */
  lemma SliceThree(s: string, i: nat, j: nat)
    requires i <= j <= |s|
    ensures s[..i] + s[i..j] + s[j..] == s
  {
  }

  /** Two parts joined are the first, the separator and the second. */
  lemma JoinTwo(sep: string, a: string, b: string)
    ensures Join(sep, [a, b]) == a + sep + b
  {
    assert [a, b][1..] == [b];
  }

  /** Four parts joined, written out. */
  lemma JoinFour(sep: string, a: string, b: string, c: string, d: string)
    ensures Join(sep, [a, b, c, d]) == a + sep + b + sep + c + sep + d
  {
    assert [a, b, c, d][1..] == [b, c, d];
    assert [b, c, d][1..] == [c, d];
    JoinTwo(sep, c, d);
    assert Join(sep, [b, c, d]) == b + sep + (c + sep + d);
    assert Join(sep, [a, b, c, d]) == a + sep + (b + sep + (c + sep + d));
  }

  /** Joining the pieces of a split with the separator gives back the string. */
  lemma {:induction false} JoinSplit(s: string, sep: char)
    ensures Join([sep], Split(s, sep)) == s
    decreases |s|
  {
    if |s| > 0 {
      var rest := Split(s[1..], sep);
      JoinSplit(s[1..], sep);
      if s[0] == sep {
        assert Split(s, sep) == [""] + rest;
        assert Join([sep], [""] + rest) == "" + [sep] + Join([sep], rest);
        assert [sep] + s[1..] == s;
      } else if |rest| == 1 {
        assert Split(s, sep) == [[s[0]] + rest[0]];
        assert [s[0]] + s[1..] == s;
      } else {
        var parts := Split(s, sep);
        assert parts == [[s[0]] + rest[0]] + rest[1..];
        assert parts[1..] == rest[1..];
        assert Join([sep], parts) == [s[0]] + rest[0] + [sep] + Join([sep], rest[1..]);
        assert Join([sep], rest) == rest[0] + [sep] + Join([sep], rest[1..]);
        assert [s[0]] + s[1..] == s;
      }
    }
  }

  /** A piece without separator followed by a separator splits off as one piece. */
  lemma {:induction false} SplitCons(a: string, sep: char, t: string)
    requires sep !in a
    ensures Split(a + [sep] + t, sep) == [a] + Split(t, sep)
    decreases |a|
  {
    if |a| == 0 {
      assert a + [sep] + t == [sep] + t;
      assert ([sep] + t)[1..] == t;
    } else {
      SplitCons(a[1..], sep, t);
      assert (a + [sep] + t)[1..] == a[1..] + [sep] + t;
      assert [a[0]] + a[1..] == a;
    }
  }

  /** A string without the separator is a single piece. */
  lemma {:induction false} SplitNoSep(a: string, sep: char)
    requires sep !in a
    ensures Split(a, sep) == [a]
    decreases |a|
  {
    if |a| > 0 {
      SplitNoSep(a[1..], sep);
      assert [a[0]] + a[1..] == a;
    }
  }

  /** Splitting a join gives back the parts, provided there is at least one
      part and no part contains the separator. */
  lemma {:induction false} SplitJoin(parts: seq<string>, sep: char)
    requires |parts| >= 1
    requires forall i :: 0 <= i < |parts| ==> sep !in parts[i]
    ensures Split(Join([sep], parts), sep) == parts
    decreases |parts|
  {
    if |parts| == 1 {
      SplitNoSep(parts[0], sep);
    } else {
      SplitJoin(parts[1..], sep);
      SplitCons(parts[0], sep, Join([sep], parts[1..]));
      assert [parts[0]] + parts[1..] == parts;
    }
  }

  // ---------------------------------------------------------------------------
  // str.split() without a separator
  // ---------------------------------------------------------------------------

  /** The index of the first whitespace character of s at or after i, or |s|. */
  function SkipWord(s: string, i: nat): (k: nat)
    requires i <= |s|
    ensures i <= k <= |s|
    ensures forall j :: i <= j < k ==> !IsSpace(s[j])
    ensures k < |s| ==> IsSpace(s[k])
    decreases |s| - i
  {
    if i < |s| && !IsSpace(s[i]) then SkipWord(s, i + 1) else i
  }

  /** The words of s[i..]: its maximal runs of non-whitespace characters, in
      order, provided i does not fall inside a word. */
  function WordsFrom(s: string, i: nat): (ws: seq<string>)
    requires i <= |s|
    ensures forall w <- ws :: |w| > 0 && NoSpace(w)
    decreases |s| - i
  {
    var a := SkipSpace(s, i);
    if a == |s| then []
    else
      var b := SkipWord(s, a);
      [s[a..b]] + WordsFrom(s, b)
  }

  /** `s.split()` */
  function Words(s: string): seq<string> {
    WordsFrom(s, 0)
  }

  /** A word starts at i: s[i] is not whitespace and s[i - 1] is, or i = 0. */
  predicate WordStart(s: string, i: nat)
    requires i < |s|
  {
    !IsSpace(s[i]) && (i == 0 || IsSpace(s[i - 1]))
  }

  /** An independent count of the words of s[i..]: the number of word starts. */
  function WordStarts(s: string, i: nat): nat
    requires i <= |s|
    decreases |s| - i
  {
    if i == |s| then 0 else (if WordStart(s, i) then 1 else 0) + WordStarts(s, i + 1)
  }

  lemma {:induction false} WordStartsBound(s: string, i: nat)
    requires i <= |s|
    ensures WordStarts(s, i) <= |s| - i
    decreases |s| - i
  {
    if i < |s| {
      WordStartsBound(s, i + 1);
    }
  }

  /** Whitespace starts no word. */
  lemma {:induction false} WordStartsSkipSpace(s: string, i: nat)
    requires i <= |s|
    ensures WordStarts(s, i) == WordStarts(s, SkipSpace(s, i))
    decreases |s| - i
  {
    if i < |s| && IsSpace(s[i]) {
      WordStartsSkipSpace(s, i + 1);
    }
  }

  /** Inside a word, only its first character is a start. */
  lemma {:induction false} WordStartsSkipWord(s: string, i: nat)
    requires 0 < i <= |s| && !IsSpace(s[i - 1])
    ensures WordStarts(s, i) == WordStarts(s, SkipWord(s, i))
    decreases |s| - i
  {
    if i < |s| && !IsSpace(s[i]) {
      WordStartsSkipWord(s, i + 1);
    }
  }

  /** A word start counts once for the whole word that follows it. */
  lemma WordStartsOfWord(s: string, a: nat)
    requires a < |s| && WordStart(s, a)
    ensures WordStarts(s, a) == 1 + WordStarts(s, SkipWord(s, a))
  {
    assert SkipWord(s, a) == SkipWord(s, a + 1);
    WordStartsSkipWord(s, a + 1);
  }

  /** After whitespace (or at the start), there is no word start left
      exactly when only whitespace is left. */
  lemma {:induction false} WordStartsZero(s: string, i: nat)
    requires i <= |s| && (i == 0 || IsSpace(s[i - 1]))
    ensures WordStarts(s, i) == 0 <==> forall j :: i <= j < |s| ==> IsSpace(s[j])
    decreases |s| - i
  {
    if i < |s| && IsSpace(s[i]) {
      WordStartsZero(s, i + 1);
    }
  }

  /** Splitting on whitespace yields exactly one word per word start, as long
      as the scan does not begin inside a word. */
  lemma {:induction false} WordsCountStarts(s: string, i: nat)
    requires i <= |s|
    requires i == 0 || i == |s| || IsSpace(s[i - 1]) || IsSpace(s[i])
    ensures |WordsFrom(s, i)| == WordStarts(s, i)
    decreases |s| - i
  {
    var a := SkipSpace(s, i);
    WordStartsSkipSpace(s, i);
    if a < |s| {
      assert WordStart(s, a) by {
        if a > i {
          assert IsSpace(s[a - 1]);
        }
      }
      WordStartsOfWord(s, a);
      WordsCountStarts(s, SkipWord(s, a));
    }
  }

  // ---------------------------------------------------------------------------
  // Decimal rendering of non-negative integers (f"{i}")
  // ---------------------------------------------------------------------------

  predicate IsDigit(c: char) {
    '0' <= c <= '9'
  }

  predicate AllDigits(s: string) {
    forall i :: 0 <= i < |s| ==> IsDigit(s[i])
  }

  function DigitChar(d: nat): (c: char)
    requires d < 10
    ensures IsDigit(c) && (c as int) - ('0' as int) == d
  {
    (('0' as int) + d) as char
  }

  /** `str(n)` for n >= 0: decimal digits without leading zeros. */
  function NatToString(n: nat): (s: string)
    ensures |s| >= 1 && AllDigits(s)
    ensures |s| > 1 ==> s[0] != '0'
  {
    if n < 10 then [DigitChar(n)] else NatToString(n / 10) + [DigitChar(n % 10)]
  }

  /** `int(s)` for a string of decimal digits. */
  function ParseDecimal(s: string): nat
    requires AllDigits(s)
  {
    if |s| == 0 then 0
    else ParseDecimal(s[..|s| - 1]) * 10 + ((s[|s| - 1] as int) - ('0' as int))
  }

  /** Reading back the rendering of n gives n. */
  lemma {:induction false} ParseNatToString(n: nat)
    ensures ParseDecimal(NatToString(n)) == n
  {
    var s := NatToString(n);
    if n >= 10 {
      ParseNatToString(n / 10);
      assert s[..|s| - 1] == NatToString(n / 10);
    }
  }

  /** Distinct numbers render as distinct strings. */
  lemma NatToStringInjective(m: nat, n: nat)
    requires NatToString(m) == NatToString(n)
    ensures m == n
  {
    ParseNatToString(m);
    ParseNatToString(n);
  }

  /** The text between a fixed head and a fixed tail, when s is framed by them. */
  function Between(s: string, head: string, tail: string): (r: Option<string>)
    ensures r.Some? <==> |head| + |tail| <= |s| && head <= s && s[|s| - |tail|..] == tail
  {
    if |head| + |tail| <= |s| && s[..|head|] == head && s[|s| - |tail|..] == tail
    then Some(s[|head|..|s| - |tail|])
    else None
  }

  /** Framing a text and taking it out of the frame gives it back. */
  lemma BetweenFrame(head: string, body: string, tail: string)
    ensures Between(head + body + tail, head, tail) == Some(body)
  {
    var s := head + body + tail;
    assert s[..|head|] == head;
    assert s[|s| - |tail|..] == tail;
    assert s[|head|..|s| - |tail|] == body;
  }

  /** Conversely, whatever is taken out of a frame, put back, gives s. */
  lemma FrameBetween(s: string, head: string, tail: string)
    requires Between(s, head, tail).Some?
    ensures head + Between(s, head, tail).value + tail == s
  {
    var body := Between(s, head, tail).value;
    assert s == s[..|head|] + s[|head|..|s| - |tail|] + s[|s| - |tail|..];
  }

  /** Offset of the first c in s, or |s| when there is none. */
  function IndexOf(s: string, c: char): (k: nat)
    ensures k <= |s| && c !in s[..k]
    ensures k < |s| ==> s[k] == c
  {
    if |s| == 0 then 0
    else if s[0] == c then 0
    else
      var k := IndexOf(s[1..], c);
      assert s[..k + 1] == [s[0]] + s[1..][..k];
      k + 1
  }

  /** The first c of d + m is the first character of m when d holds no c. */
  lemma IndexOfAfter(d: string, m: string, c: char)
    requires c !in d && |m| > 0 && m[0] == c
    ensures IndexOf(d + m, c) == |d|
  {
    var s := d + m;
    var k := IndexOf(s, c);
    assert s[|d|] == c;
    assert forall i :: 0 <= i < |d| ==> s[i] == d[i];
  }
}

=== FILE: webapp.dfy ===
/** The web app's run: `start` reads the form, names the run after the clock
    and creates its progress record; the background task then runs the
    pipeline with the chosen text model, compressing each scene before
    illustrating it, and writes progress at fixed checkpoints. The task is
    modelled as running to its end (or to the first exception) right after
    `start`, with the same inputs as the command-line pipeline. */
module WebApp {
  import opened Wrappers
  import opened Strings
  import opened Scenes
  import opened Prompts
  import opened Storybook
  import opened Artifacts
  import opened Pipeline
  import Progress
  import Registry
  import Ollama
  import Config

  /** The fields of the start form. */
  datatype Form = Form(dream: string, elements: string, model: string)

  /** `request.form["elements"].split(",")`: split at every comma, nothing
      trimmed; the empty field gives one empty element. */
  function ParseElements(field: string): (elements: seq<string>)
    ensures |elements| == Occurrences(field, ',') + 1
    ensures forall i :: 0 <= i < |elements| ==> ',' !in elements[i]
    ensures Join(",", elements) == field
  {
    JoinSplit(field, ',');
    Split(field, ',')
  }

  /** Element lists without commas inside come back from their joined field. */
  lemma ParseJoinedElements(elements: seq<string>)
    requires |elements| > 0
    requires forall i :: 0 <= i < |elements| ==> ',' !in elements[i]
    ensures ParseElements(Join(",", elements)) == elements
  {
    SplitJoin(elements, ',');
  }

  /** A space typed after a comma is kept in the element that follows:
      "fox, moon" gives "fox" and " moon". */
  lemma ElementsKeepSpaces(a: string, b: string)
    requires ',' !in a && ',' !in b
    ensures ParseElements(a + ", " + b) == [a, " " + b]
  {
    JoinTwo(",", a, " " + b);
    assert a + "," + (" " + b) == a + ", " + b;
    assert ',' !in " " + b;
    ParseJoinedElements([a, " " + b]);
  }

  /** The story prompt then lists such elements with two spaces after the
      comma: "fox, moon" is listed as "fox,  moon". */
  lemma SpacedElementsInPrompt(a: string, b: string)
    requires ',' !in a && ',' !in b
    ensures Join(", ", ParseElements(a + ", " + b)) == a + ",  " + b
  {
    ElementsKeepSpaces(a, b);
    JoinTwo(", ", a, " " + b);
    assert a + ", " + (" " + b) == a + ",  " + b;
  }

  /** The progress tracker after a run's start and its first k checkpoint
      writes. */
  function Progressed(t: Progress.Tracker, id: string, k: nat): Progress.Tracker
    requires k <= |Progress.Checkpoints|
  {
    Progress.StatusAfterCheckpoints(t, id, k);
    Progress.Replay(Progress.Start(t, id), id, Progress.Checkpoints[..k]).value
  }

  /** The run's status after k checkpoint writes: stage and percent of the
      last one, done only after all of them. */
  lemma ProgressedStatus(t: Progress.Tracker, id: string, k: nat)
    requires k <= |Progress.Checkpoints|
    ensures Progress.Status(Progressed(t, id, k), id) == Progress.RecordAfter(k)
  {
    Progress.StatusAfterCheckpoints(t, id, k);
  }

  /** A run's progress writes leave every other run's record as it was. */
  lemma ProgressedLeavesOthers(t: Progress.Tracker, id: string, k: nat)
    requires k <= |Progress.Checkpoints|
    ensures forall other :: other != id ==> (other in Progressed(t, id, k) <==> other in t)
    ensures forall other :: other != id && other in t ==> Progressed(t, id, k)[other] == t[other]
  {
    Progress.ReplayStarted(Progress.Start(t, id), id, Progress.Checkpoints[..k]);
  }

  /** Creating the record is the state before any checkpoint. */
  lemma ProgressStart(t: Progress.Tracker, id: string)
    ensures Progress.Start(t, id) == Progressed(t, id, 0)
  {
    assert Progress.Checkpoints[..0] == [];
  }

  /** Each checkpoint write succeeds and moves the tracker one checkpoint on. */
  lemma ProgressStep(t: Progress.Tracker, id: string, k: nat)
    requires k < |Progress.Checkpoints|
    ensures Progress.Write(Progressed(t, id, k), id, Progress.Checkpoints[k]) == Success(Progressed(t, id, k + 1))
  {
    Progress.ReplayStarted(Progress.Start(t, id), id, Progress.Checkpoints[..k]);
    Progress.ReplaySnoc(Progress.Start(t, id), id, Progress.Checkpoints[..k], Progress.Checkpoints[k]);
    assert Progress.Checkpoints[..k + 1] == Progress.Checkpoints[..k] + [Progress.Checkpoints[k]];
  }

  /** `[compress_scene_for_illustration(s, runner) for s in scenes]`, one
      summary per scene, in order. */
  function CompressAll(scenes: seq<string>, runner: string -> string): (summaries: seq<string>)
    ensures |summaries| == |scenes|
    ensures forall i :: 0 <= i < |scenes| ==> summaries[i] == CompressScene(scenes[i], runner)
  {
    seq(|scenes|, i requires 0 <= i < |scenes| => CompressScene(scenes[i], runner))
  }

  /** The story and the image prompts of the background task, for a given
      text model: each scene is compressed by the model before its prompt
      is built. */
  function WebPrompts(gen: string -> string, form: Form): (string, seq<string>) {
    var story := GenerateStory(gen, form.dream, ParseElements(form.elements));
    (story, ImagePrompts(CompressAll(SplitScenes(story, Config.Scenes), gen)))
  }

  /** The web app's prompts: one per scene of the story, each focused on the
      stripped reply of the text model to a compression prompt carrying that
      scene; the story is the model's reply to the story prompt for the
      dream and the comma-separated elements. */
  lemma WebPromptsFocus(gen: string -> string, form: Form)
    ensures WebPrompts(gen, form).0 == GenerateStory(gen, form.dream, ParseElements(form.elements))
    ensures |WebPrompts(gen, form).1| == |SplitScenes(WebPrompts(gen, form).0, Config.Scenes)|
    ensures forall i :: 0 <= i < |WebPrompts(gen, form).1| ==>
      exists p :: && CompressedSceneOf(p) == Some(SplitScenes(WebPrompts(gen, form).0, Config.Scenes)[i])
                  && FocusOf(WebPrompts(gen, form).1[i]) == Some(Strip(gen(p)))
  {
    var scenes := SplitScenes(WebPrompts(gen, form).0, Config.Scenes);
    forall i | 0 <= i < |scenes| {
      CompressSceneReply(scenes[i], gen);
    }
  }

  /** One checkpoint write of the background task. */
  method Advance(t: Progress.Tracker, id: string, k: nat, current: Progress.Tracker) returns (next: Progress.Tracker)
    requires k < |Progress.Checkpoints| && current == Progressed(t, id, k)
    ensures next == Progressed(t, id, k + 1)
  {
    ProgressStep(t, id, k);
    next := Progress.Write(current, id, Progress.Checkpoints[k]).value;
  }

  /** The end of the background task, from the 60% checkpoint on: paint
      one image per prompt; if none fails, render the page and mark the run
      done. */
  method Finish<Img>(t: Progress.Tracker, runId: string, timestamp: string, story: string,
                     prompts: seq<string>, painter: string -> Option<Img>, files: map<string, Img>,
                     current: Progress.Tracker)
    returns (t': Progress.Tracker, paths: seq<string>, files': map<string, Img>,
             page: Option<(string, seq<SceneView>)>, writes: nat)
    requires current == Progressed(t, runId, 4)
    ensures writes == 4 || writes == 6
    ensures t' == Progressed(t, runId, writes)
    ensures writes == 6 <==> |paths| == |prompts|
    ensures page.Some? <==> writes == 6
    ensures ImagesSaved(RunDir(timestamp), prompts, painter, files, paths, files')
    ensures page.Some? ==> PageOf(story, paths, timestamp, page.value)
  {
    var failed;
    paths, files', failed := Illustrate(RunDir(timestamp), prompts, painter, files);
    t', page, writes := current, None, 4;
    if !failed {
      t' := Advance(t, runId, 4, t');
      var p := Render(story, paths, timestamp);
      page := Some(p);
      t' := Advance(t, runId, 5, t');
      writes := 6;
    }
  }

  /** The two lookups of the background task in the registry it builds:
      the text runner for the chosen model and the configured image
      pipeline. */
  method Models(model: string, post: (string, Ollama.Payload) -> Ollama.Exchange)
    returns (textModel: string -> string, pipe: Registry.ImagePipe)
    ensures textModel == TextModel(model, post) && pipe == LoadedPipe
  {
    var registry := Registered(model, TextModel(model, post));
    textModel := Registry.GetText(registry, model).value;
    pipe := Registry.GetImage(registry, Config.ImageModelName).value;
  }

  /** The background task once both models are registered, from its first
      checkpoint on: generate the story, split and compress the scenes,
      build the prompts, then finish. */
  method Task<Img>(t: Progress.Tracker, runId: string, timestamp: string, form: Form,
                   post: (string, Ollama.Payload) -> Ollama.Exchange, paint: Paint<Img>,
                   files: map<string, Img>, current: Progress.Tracker)
    returns (t': Progress.Tracker, story: string, prompts: seq<string>,
             paths: seq<string>, files': map<string, Img>, page: Option<(string, seq<SceneView>)>,
             writes: nat)
    requires current == Progressed(t, runId, 1)
    ensures writes == 4 || writes == 6
    ensures t' == Progressed(t, runId, writes)
    ensures writes == 6 <==> |paths| == |prompts|
    ensures page.Some? <==> writes == 6
    ensures (story, prompts) == WebPrompts(TextModel(form.model, post), form)
    ensures ImagesSaved(RunDir(timestamp), prompts, Painter(paint, LoadedPipe), files, paths, files')
    ensures page.Some? ==> PageOf(story, paths, timestamp, page.value)
  {
    var textModel, pipe := Models(form.model, post);
    t' := Advance(t, runId, 1, current);
    story := GenerateStory(textModel, form.dream, ParseElements(form.elements));
    t' := Advance(t, runId, 2, t');
    prompts := ImagePrompts(CompressAll(SplitScenes(story, Config.Scenes), textModel));
    t' := Advance(t, runId, 3, t');
    t', paths, files', page, writes := Finish(t, runId, timestamp, story, prompts, Painter(paint, pipe), files, t');
  }

  /** `start()` followed by its background task. `loads` says whether the
      image pipeline loads (loading raises otherwise); `paint` is the image
      call, `None` when it raises. An exception ends the task and leaves the
      progress at its last checkpoint: 5% when the image model does not
      load, 60% when an image fails, done at 100% otherwise. Other runs'
      records are left as they were. */
  method StartRun<Img>(t: Progress.Tracker, timestamp: string, form: Form,
                       post: (string, Ollama.Payload) -> Ollama.Exchange, loads: bool,
                       paint: Paint<Img>, files: map<string, Img>)
    returns (runId: string, t': Progress.Tracker, story: string, prompts: seq<string>,
             paths: seq<string>, files': map<string, Img>, page: Option<(string, seq<SceneView>)>,
             writes: nat)
    ensures runId == RunName(timestamp)
    ensures writes <= |Progress.Checkpoints| && t' == Progressed(t, runId, writes)
    ensures Progress.Status(t', runId) == Progress.RecordAfter(writes)
    ensures writes == 1 <==> !loads
    ensures writes == 4 <==> loads && |paths| < |prompts|
    ensures writes == 6 <==> loads && |paths| == |prompts|
    ensures page.Some? <==> writes == 6
    ensures !loads ==> files' == files && paths == []
    ensures loads ==> (story, prompts) == WebPrompts(TextModel(form.model, post), form)
    ensures loads ==> ImagesSaved(RunDir(timestamp), prompts, Painter(paint, LoadedPipe), files, paths, files')
    ensures page.Some? ==> PageOf(story, paths, timestamp, page.value)
  {
    runId := RunName(timestamp);
    t' := Progress.Start(t, runId);
    ProgressStart(t, runId);
    t' := Advance(t, runId, 0, t');
    if !loads {
      story, prompts, paths, files', page, writes := "", [], [], files, None, 1;
      ProgressedStatus(t, runId, writes);
      return;
    }
    t', story, prompts, paths, files', page, writes := Task(t, runId, timestamp, form, post, paint, files, t');
    ProgressedStatus(t, runId, writes);
  }

  /** What `status` reports for a run once its task has ended: done with
      100% exactly when its page was written, otherwise the stage it stopped
      at. */
  lemma StatusAfterRun(t: Progress.Tracker, id: string, writes: nat)
    requires writes == 1 || writes == 4 || writes == 6
    ensures writes == 1 ==>
      Progress.Status(Progressed(t, id, writes), id) == Progress.Record(5, "Registering image model...", false)
    ensures writes == 4 ==>
      Progress.Status(Progressed(t, id, writes), id) == Progress.Record(60, "Creating illustrations...", false)
    ensures writes == 6 ==>
      Progress.Status(Progressed(t, id, writes), id) == Progress.Record(100, "Complete!", true)
  {
    ProgressedStatus(t, id, writes);
  }
}

=== FILE: wrappers.dfy ===
/** Option and Result values used where the program returns `None` or raises. */
module Wrappers {

  /** A value that may be absent, as Python's `None`. */
  datatype Option<+T> = None | Some(value: T) {

    /** The value, or `default` when absent (Python's `dict.get(key, default)`). */
    function GetOr(default: T): T {
      match this
      case Some(v) => v
      case None => default
    }
  }

  /** Either a value or the error that stopped the computation. */
  datatype Result<+T, +E> = Success(value: T) | Failure(error: E)

  function Min(a: int, b: int): int {
    if a <= b then a else b
  }

  function Max(a: int, b: int): int {
    if a >= b then a else b
  }
}
